=== FILE: README.md ===
# Phalcon incubator events manager, modelled in Dafny

This project models the event manager `Manager` of phalcon/incubator-events
(src/Manager.php). The manager is an in-process, synchronous event
dispatcher with five parts:

- the event-type check `checkEventType`;
- the registry mutations `attach` and `detach`, over a map from event key
  to a priority queue of handlers;
- the declarative loader `loadHandler` / `loadHandlers`;
- the two-pass firing `fire` / `fireEvents`, which fires the group key and
  then the full key with one shared event;
- the per-queue loop `firePriorityQueue`, with its skip rules, last-status
  tracking, response collection and cooperative cancellation.

Everything is a pure function over an immutable `Manager` value. Its fields
are the ones the class reads from its parent: `events` (`None` until the
first `attach`), `responses`, `collect` and `enablePriorities`. What the
manager consults but does not define comes in a `Host` record of total
functions:

- `isValidHandler`, the parent manager's check;
- `instantiate`, standing for `class_exists` + `new`;
- `invoke`, a handler body, which yields the returned value and whether
  the handler stopped the event.

Exceptions are values. A mutation returns `Done(m, error)`. The state is kept
even when there is an error, because the loader is not transactional.
`fire` returns a `Result`.

A priority queue is a sequence of entries in extraction order, highest
priority first. `SplPriorityQueue` does not fix the order of equal
priorities. This model makes one labelled choice, stable first-in-first-out
(`Queues.Insert`). These depend on that choice:

- `Queues.InsertStable`, `Queues.InsertAtRank` and `Queues.InsertLowest`;
- `Queues.RebuildFromAppends` and `Queues.RebuildIsWithout`;
- the registry lemmas built on them: `Registry.AttachWithoutPrioritiesAppends`,
  `Registry.DetachKeepsOrder` and `Registry.AttachDetach`.

The firing and counting lemmas use only the fact that queues are in
extraction order (`Queues.Sorted`).

Modules:

- `Outcomes`: Option, Result and the errors.
- `Values`: handler values, returned statuses and the `?bool` return coercion.
- `EventTypes`: the format check and the `explode` split.
- `Queues`: queue insertion and the detach rebuild.
- `Registry`: state, `attach` and `detach`.
- `Loader`: `loadHandler` and `loadHandlers`.
- `Dispatch`: `fire`, `fireEvents` and `firePriorityQueue`.
- `Scenarios`: concrete runs that exhibit the two findings.

Notable behaviours of the code:

- Event types with several colons are accepted. The group is the text
  before the first colon and the event name is the text between the first
  and the second colon.
- A pass that starts on an already stopped event still invokes its first
  eligible handler, because the stop flag is read only after an invocation.
- An existing full-key queue overwrites the group pass's status, even with
  `null` when none of its handlers ran.
- The values of a plain list are loaded at `DEFAULT_PRIORITY`, not at the
  incoming priority.
- `fireEvents` is declared `?bool` in a file without `strict_types`.
  Integer, float and string statuses are therefore coerced to booleans, and
  array or object statuses raise a `TypeError`.
- `firePriorityQueue` calls `top()` before its loop. On an empty queue this
  throws "Can't peek at an empty heap", so a key holding an empty queue
  makes `fire` fail.
- The `detach` guard is inverted, and correcting it alone leaves emptied
  queues stored (see Findings).
- Under PHP 8, a valid handler that is a callable array, such as
  `[$obj, 'onX']`, makes `method_exists` (line 200) throw a `TypeError`.
  So `fire` throws on any key that holds one and reaches it in the loop.
  The model does not represent this (see `Dispatch.Eligible` under
  "## Left out").
- Separately loaded instances of one class are distinct objects, so
  `detach` of one instance leaves the others queued.

## Model

| member | source | states |
|---|---|---|
| EventTypes.CheckEventType | src/Manager.php:223-230 | succeeds (with `true`) exactly when the string contains a `:`; otherwise fails with the "Event type is not valid" exception |
| EventTypes.ColonIndex | src/Manager.php:225 | `strpos` for `:`: the first colon's position, or the length when there is none, and no colon before it |
| EventTypes.Group | src/Manager.php:143 | the first `explode` segment has no colon and is followed by a colon in the event type |
| EventTypes.EventName | src/Manager.php:143-144 | the second `explode` segment has no colon, directly follows the group's colon, and ends at the end of the string or at the next colon |
| EventTypes.SplitJoin | src/Manager.php:143 | splitting `g + ":" + n + tail` gives back group `g`, and name `n` whenever the tail is empty or starts with another colon |
| EventTypes.GroupIsNotFullKey | src/Manager.php:145-146 | the two passes of `fire` always look up two different keys |
| Values.AsNullableBool | src/Manager.php:157 | the `?bool` return coercion: it fails (with a `TypeError`) exactly for arrays and objects, keeps `null` and booleans, maps integers and floats by `!= 0`, and strings to false exactly when they are `""` or `"0"` |
| Queues.Insert | src/Manager.php:87 | insertion adds exactly the one entry to the queue's contents |
| Queues.InsertSorted | src/Manager.php:87 | insertion keeps a queue in extraction order |
| Queues.InsertStable | src/Manager.php:87 | the chosen tie-break: the new entry goes after every entry of higher or equal priority, before every lower one, and the others keep their order |
| Queues.InsertLowest | src/Manager.php:87 | an entry whose priority is not above any queued one goes last |
| Queues.WithoutCount | src/Manager.php:114-118 | the filter drops every entry of the handler, duplicates included, and keeps every other entry as often as it was queued |
| Queues.WithoutSorted | src/Manager.php:109-119 | the filter keeps a queue in extraction order |
| Queues.WithoutInsert | src/Manager.php:87-118 | filtering out a handler also removes an entry of it inserted just before |
| Queues.WithoutAbsent | src/Manager.php:114-118 | filtering out a handler that is not queued changes nothing |
| Queues.RebuildCount | src/Manager.php:109-119 | whatever the tie-break, the rebuilt queue holds exactly the entries whose handler is not `!==`-identical to the argument, each at its own priority and as often as before |
| Queues.RebuildFromCount | src/Manager.php:109-119 | each step of the rebuild loop adds the surviving entries to the new queue |
| Queues.RebuildIsWithout | src/Manager.php:109-119 | rebuilding a queue in extraction order gives exactly the filtered queue, in the same order |
| Registry.Attach | src/Manager.php:70-88 | an invalid handler throws and changes nothing; otherwise there is no error, the key has a queue (created if absent, without validating the key), and that queue gains exactly one entry at the effective priority |
| Registry.AttachFrame | src/Manager.php:70-88 | `attach` touches no other key and no other field, and keeps every queue in extraction order |
| Registry.AttachIgnoresPriority | src/Manager.php:83-85 | with priorities disabled the requested priority makes no difference |
| Registry.AttachWithoutPrioritiesAppends | src/Manager.php:83-87 | with priorities disabled, attaching appends at `DEFAULT_PRIORITY` |
| Registry.DetachAsWritten | src/Manager.php:95-123 | as written: an invalid handler throws; a missing key fails with a call on `null`; an existing queue is left unchanged |
| Registry.DetachAsWrittenKeepsHandler | src/Manager.php:101-102 | as written, a queued handler is still queued after `detach` |
| Registry.Detach | src/Manager.php:95-123 | corrected guard: an invalid handler throws and changes nothing; a missing key is left alone; an existing empty queue makes the `top()` of line 107 throw; otherwise the queue keeps exactly the entries of other handlers, and no other key or field changes |
| Registry.DetachLastLeavesEmptyQueue | src/Manager.php:109-121 | with only the guard corrected, detaching the only handler of a key leaves an empty queue stored under the key |
| Registry.DetachPrunes | src/Manager.php:95-123 | `detach` as evidently intended: an invalid handler throws and changes nothing; otherwise no error, the key keeps exactly the entries of other handlers, holds a queue exactly when one remains, and nothing else changes |
| Registry.AttachKeepsNoEmpty | src/Manager.php:76-87 | `attach` never leaves an empty queue stored |
| Registry.DetachPrunesKeepsNoEmpty | src/Manager.php:109-121 | the pruning `detach` never leaves an empty queue stored |
| Registry.DetachKeepsOrder | src/Manager.php:109-121 | on a well-formed registry the corrected `detach` stores exactly the filtered queue and keeps the registry well-formed |
| Registry.AttachDetach | src/Manager.php:70-123 | attaching a handler not yet queued and detaching it (corrected) restores the key's queue |
| Loader.LoadHandler | src/Manager.php:35-62 | a colon-less event type fails before anything is attached; otherwise the only possible failure is the invalid-handler exception |
| Loader.LoadItems | src/Manager.php:55-57 | the list loop fails like `loadHandler` does |
| Loader.Declared | src/Manager.php:38-61 | every entry a declaration denotes has a valid handler, and the only failure is the invalid-handler exception |
| Loader.DeclaredSingle | src/Manager.php:39-47 | a value that is not an array denotes one entry at the priority passed, or fails with none |
| Loader.DeclaredItems | src/Manager.php:55-57 | the same for the values of a list |
| Loader.LoadIsAttachAll | src/Manager.php:35-62 | for a valid event type, loading is attaching the denoted entries in order and then raising the failure they end with; attachments before a failure stay |
| Loader.LoadItemsIsAttachAll | src/Manager.php:55-57 | the same for the list loop, which stops at the first failing value |
| Loader.LoadItemsStep | src/Manager.php:55-57 | a list value that loads without failure contributes its attachments and the loop goes on with the next value |
| Loader.ItemsLoadStep | src/Manager.php:55-57 | one pass of the list loop: a failing value ends the loop with its error, otherwise the loop continues on the manager it left |
| Loader.AttachAllAppend | src/Manager.php:55-57 | attaching two runs of entries is attaching the first run and then the second |
| Loader.AttachAllFrame | src/Manager.php:70-88 | attaching valid entries touches only the key's queue and keeps the registry well-formed |
| Loader.AttachAllAdds | src/Manager.php:70-88 | attaching valid entries adds exactly those entries to the key's queue, at their effective priorities |
| Loader.AttachAllKeepsNoEmpty | src/Manager.php:76-87 | attaching a run of entries never leaves an empty queue stored |
| Loader.LoadKeepsNoEmpty | src/Manager.php:35-62 | loading never leaves an empty queue stored, even when it fails |
| Loader.LoadHandlerFrame | src/Manager.php:35-62 | loading touches only its key's queue; that queue gains exactly the denoted entries, even when the load then fails; the registry stays well-formed |
| Loader.LoadKeyedWithPriority | src/Manager.php:49-53 | a `'class'` array with a `'priority'` entry loads its `'class'` value exactly as that value is loaded at that priority, whatever priority the call passed |
| Loader.LoadValidHandler | src/Manager.php:39-40 | a valid handler is attached as it is at the priority passed, without error |
| Loader.LoadClassName | src/Manager.php:41-47 | a class name that is not a handler is instantiated; a valid instance is attached at the priority passed, an invalid one throws with nothing attached |
| Loader.LoadUnusable | src/Manager.php:59-60 | any other invalid value that is not an array and not an instantiable class name throws with nothing attached |
| Loader.LoadKeyedWithoutPriority | src/Manager.php:49-53 | a `'class'` array without a `'priority'` entry keeps the incoming priority |
| Loader.LoadListIgnoresPriority | src/Manager.php:54-57 | the priority passed with a plain list makes no difference |
| Loader.ListOfHandlers | src/Manager.php:54-57 | a list of valid handlers denotes one entry per value, in list order, at `DEFAULT_PRIORITY` |
| Loader.ListSuffix | src/Manager.php:55-57 | the same for the last `n` values of the list |
| Loader.LoadKeepsEarlierSiblings | src/Manager.php:55-57 | a list's first valid value stays attached whatever the later values do |
| Loader.LoadHandlers | src/Manager.php:22-27 | success means every key had a colon; the only failures are the two exceptions |
| Loader.LoadHandlersFrame | src/Manager.php:22-27 | `loadHandlers` touches only the queues of the keys it names, even when it fails part-way, and keeps the registry well-formed |
| Loader.LoadHandlersInOrder | src/Manager.php:24-26 | pairs are processed in array order and the loop stops at the first exception |
| Loader.GroupKeysOnlyThroughAttach | src/Manager.php:35-88 | a colon-less key can be registered by `attach` but is rejected by the loader before anything is attached |
| Dispatch.RunQueue | src/Manager.php:188-214 | the loop's last status is the value the last invoked handler returned, or `null` when none ran |
| Dispatch.RunEvent | src/Manager.php:188-214 | the loop hands back the same event, stopped exactly when its last invocation left it stopped |
| Dispatch.RunFollowsHandlers | src/Manager.php:188-213 | each call of the loop records what its handler's body returned and whether the event is stopped after it, the body being run on the shared event with the stop flag the earlier calls left |
| Dispatch.FollowsCons | src/Manager.php:188-213 | a call that records its body, followed by calls that follow the handlers from the event it left, follow the handlers |
| Dispatch.RunInvokesEligiblePrefix | src/Manager.php:191-213 | the loop invokes, in queue order, a prefix of the eligible entries (valid, and a closure or an object with the event's method); all of them when the event is not cancelable |
| Dispatch.EligibleInSpec | src/Manager.php:193-201 | every eligible entry comes from the queue and passes the skip rules |
| Dispatch.EligibleInCount | src/Manager.php:193-201 | the loop's skip rules keep every eligible entry as often as it is queued and drop every other entry |
| Dispatch.EligibleSorted | src/Manager.php:193-201 | the eligible entries of a queue in extraction order are in extraction order |
| Dispatch.RunInPriorityOrder | src/Manager.php:186-188 | over a queue in extraction order, handlers are invoked in non-increasing priority order |
| Dispatch.RunStaysStopped | src/Manager.php:211 | a pass that starts on a stopped event leaves it stopped after every call |
| Dispatch.RunStopSticks | src/Manager.php:188-213 | once a handler stops the event, every later call of the pass sees it stopped, also when the pass started unstopped |
| Dispatch.FollowsStopSticks | src/Manager.php:188-213 | in calls that follow the handlers, a stop flag once set stays set for every later call |
| Dispatch.RunCancelStops | src/Manager.php:211-213 | with a cancelable event no invocation before the last one stopped it, and the pass ends early only because the last invocation stopped it |
| Dispatch.RunStartsStopped | src/Manager.php:211-213 | a cancelable pass that starts on a stopped event invokes exactly its first eligible handler |
| Dispatch.RunCollects | src/Manager.php:205-207 | with `collect`, the loop appends exactly the invoked handlers' returns in invocation order; without it `responses` is untouched |
| Dispatch.FirePriorityQueue | src/Manager.php:172-217 | `top()` on an empty queue throws "Can't peek at an empty heap" and changes nothing; otherwise the status is the last invoked handler's return, or `null`; every call records its handler's body run on the event as the earlier calls left it; only `responses` changes, growing by the returns when collecting |
| Dispatch.FireEvents | src/Manager.php:157-166 | without a queue the incoming status is returned (coerced); an empty queue throws the empty-heap exception; with entries, the pass's status (coerced), even `null`; the calls follow the handlers; only `responses` changes |
| Dispatch.FireEventsRuns | src/Manager.php:160-163 | a pass runs the loop over its key's queue from a `null` status |
| Dispatch.FireEventsInvokes | src/Manager.php:160-163 | a pass invokes a prefix of its queue's eligible entries (all of them when not cancelable), in non-increasing priority order |
| Dispatch.FireEventsAfterStopped | src/Manager.php:157-213 | a pass on a stopped cancelable event invokes exactly its first eligible handler |
| Dispatch.GroupPassEvent | src/Manager.php:143-145 | the group pass hands on the event named by the second segment, stopped only if its last invocation stopped it |
| Dispatch.FireFollowsHandlers | src/Manager.php:143-213 | the group pass follows the handlers from the fresh event, the full-key pass from the event the group pass left |
| Dispatch.Fire | src/Manager.php:132-149 | a colon-less type throws; an uninitialised registry gives `null`; the registry and configuration are unchanged; the only other failures are the coercion `TypeError` and the empty-heap exception; a key without a queue invokes nothing |
| Dispatch.FireCollects | src/Manager.php:139-146 | with `collect`, `responses` ends as the group pass's returns followed by the full pass's, the earlier contents discarded; without it `responses` is untouched |
| Dispatch.FireStatus | src/Manager.php:145-165 | when `fire` does not throw, the result is the full-key pass's status whenever that key has a queue, even `null`; otherwise the group pass's; `null` when neither key has a queue |
| Dispatch.FireWithoutQueues | src/Manager.php:145-148 | with neither key registered, `fire` returns `null` and invokes nothing |
| Dispatch.FireGroupThenFull | src/Manager.php:145-146 | with a non-cancelable event and a group pass that does not throw, all eligible group handlers run before all eligible full-key handlers, however high the latter's priorities |
| Dispatch.FireInPriorityOrder | src/Manager.php:145-188 | on a well-formed registry each pass invokes its handlers in non-increasing priority order |
| Dispatch.FireAfterGroupStopped | src/Manager.php:144-213 | when the group pass stops the shared cancelable event without throwing, the full-key pass still invokes its first eligible handler, and only that one |
| Dispatch.FireEmptyHeap | src/Manager.php:145-186 | `fire` throws the empty-heap exception only when the group key or the full key holds an empty queue, and always when the group key does |
| Dispatch.FireNeverPeeksEmpty | src/Manager.php:145-186 | on a registry storing no empty queue, `fire` never throws the empty-heap exception |
| Scenarios.DetachAsWrittenCounterexample | src/Manager.php:102-106 | a just-attached closure survives `detach` as written, and `detach` on a missing key fails; the corrected `Detach` empties the queue |
| Scenarios.FireAfterDetachingAll | src/Manager.php:102-186 | with the guard corrected, attaching and detaching one closure makes `fire("g:n")` throw the empty-heap exception; with the pruning `detach` it returns `null` |

## Left out

- The parent `Phalcon\Events\Manager` is not part of this model. Its
  `isValidHandler` is a parameter (`Host.isValidHandler`). `DEFAULT_PRIORITY`
  is taken as 100, and no proof depends on the value.
- `class_exists` and `new $name()` are a parameter (`Host.instantiate`).
  A constructor that throws is not modelled.
- Loader.LoadClassName: `instantiate` is a function of the class name, so
  two loads of one class name give the same `Obj` value. In PHP, each
  `new $handler()` (line 42) makes a distinct object, and the `!==` of
  line 113 tells them apart. In the model, separately loaded instances of
  one class are therefore identical, and a `detach` of one removes them
  all. Giving each instantiation a fresh identity would need a counter
  threaded through the loader, and it is left out.
- Handler bodies are a parameter (`Host.invoke`). Exceptions thrown by
  handlers, re-entrant `fire` calls, and changes a handler makes to the
  manager are not modelled.
- `Host.invoke` is a function of the handler and the event. A body whose
  result depends on its own earlier calls is not represented, such as a
  closure that counts its calls through `use (&$n)`. So a handler queued
  twice and run twice on an unchanged event yields the same value both
  times.
- `Phalcon\Events\Event` is reduced to its name, its cancelable flag and
  its stopped flag. The source and data payloads are passed through
  unchanged, so they are left out.
- Stopping a non-cancelable event: the parent `Event` throws from `stop()`
  inside the handler, and the exception leaves `fire`. That is a handler
  exception, which is not modelled. Instead, `Host.invoke` may report
  `stops` there. The pass records the flag in `stoppedAfter` and hands a
  stopped event to the later handlers, a state PHP never reaches. The loop
  (line 211) reads the flag only for cancelable events, so the handlers
  invoked are the same either way.
- The unused `$strict` parameter of `fire` is left out.
- `SplPriorityQueue` internals are left out. Its equal-priority order is
  replaced by the stable choice described above.
- The `(int)` cast of a `'priority'` entry is left out: `Keyed.priority` is
  already an integer. Array entries other than `'class'` and `'priority'`
  are ignored, as in the source.
- Dispatch.Eligible: a valid handler that is neither a closure nor an
  object is skipped, which differs from PHP 8 in two ways:
  - For a callable array such as `[$obj, 'onX']`, which the parent's
    `isValidHandler` accepts, `method_exists` (line 200) throws a
    `TypeError` and `fire` fails.
  - For a class-name string whose class has the method, `method_exists`
    holds and the call at line 204 fails on the string.

  Both exceptions are raised inside the loop of `firePriorityQueue`, and
  the model's loop (`RunQueue`) has no error channel. Adding one would
  change the statement of every lemma about a pass. So in both cases the
  model skips the entry and `fire` goes on.
- `Obj.methods` stands for every name `method_exists` accepts, in every
  spelling, since PHP method names are case-insensitive. `method_exists`
  also accepts private and protected methods, and calling one from the
  manager fails. That failure is not modelled: such a method counts as
  invoked like a public one.
- `responses = null` is modelled as the empty sequence. The difference
  shows only when `collect` is on and no handler ran.
- The `is_string($eventName)` check of `firePriorityQueue` always passes,
  because names are strings here.
- The undefined `$status` that `fire` passes to its first `fireEvents` is
  modelled as `null`. Passing an undefined variable to a by-reference
  parameter creates it as `null` without a notice.
- Float statuses are finite reals. NaN and the infinities are truthy in
  PHP, so they coerce to `true`; they are not represented.
- The extract flags of a stored queue are not modelled. When the corrected
  `Registry.Detach` throws on an existing empty queue, line 106 has already
  switched that stored queue to `EXTR_BOTH`. A later pass over that key
  would then see `['data' => ..., 'priority' => ...]` arrays instead of
  handlers. The model keeps the stored queue as it was.
- tests/unit/ManagerTest.php only checks the class's interface, so there is
  nothing in it to model.
- Dispatch.EligibleIn, Dispatch.Invoked and Dispatch.Returns: their
  contracts state only lengths. Their contents are stated by the lemmas
  about them (`EligibleInSpec` and `EligibleInCount`,
  `RunInvokesEligiblePrefix`, `RunCollects`).
- Queues.Without: its contract states only that the result is not longer.
  Its contents are stated by `WithoutCount` and `WithoutSorted`.

## Findings

| source | as written | input that shows it | evidently intended | confidence | as-written member | corrected member |
|---|---|---|---|---|---|---|
| src/Manager.php:102 | `if (!$priorityQueue instanceof SplPriorityQueue)` runs the rebuild only when the key has no queue, so it calls `setExtractFlags` on `null` there (line 106), and leaves an existing queue untouched | `attach("g:n", $closure, 1)` then `detach("g:n", $closure)` leaves the closure queued; `detach("g:n", $closure)` on a fresh manager fails with a call on `null` | rebuild the queue without the handler when the key has one; do nothing when it has none | high, not executed | Registry.DetachAsWritten, Scenarios.DetachAsWrittenCounterexample | Registry.Detach, Registry.DetachKeepsOrder |
| src/Manager.php:186 | `$iterator->top()` throws "Can't peek at an empty heap" on an empty queue. Once the guard of line 102 is corrected, detaching the last handler of a key leaves an empty queue stored under it (line 121), so every later `fire` of that key throws | `attach("g:n", $closure, 1)`, then `detach("g:n", $closure)` with line 102 corrected, then `fire("g:n", $source)` throws a `RuntimeException` | a key whose last handler was detached behaves like a key with none: `fire` returns `null` | medium, not executed | Registry.DetachLastLeavesEmptyQueue, Dispatch.FireEmptyHeap, Scenarios.FireAfterDetachingAll | Registry.DetachPrunes, Registry.DetachPrunesKeepsNoEmpty, Dispatch.FireNeverPeeksEmpty |

=== FILE: dispatch.dfy ===
/** Firing: `fire`, `fireEvents` and `firePriorityQueue`
    (src/Manager.php:132-217). */
module Dispatch {
  import opened Outcomes
  import opened Values
  import opened Queues
  import opened EventTypes
  import opened Registry

  /** Whether `firePriorityQueue` invokes `h` for an event named `name`:
      invalid handlers are skipped (line 193), closures are called
      (line 197), other values only when they have a method of that name
      (line 200). A valid value that is neither a closure nor an object is
      skipped here; under PHP 8, `method_exists` throws a `TypeError` for
      an array. */
  predicate Eligible(host: Host, h: Handler, name: string) {
    host.isValidHandler(h) && (h.Closure? || HasMethod(h, name))
  }

  /** The entries of `q` that a pass for `name` would invoke, in order. */
  function EligibleIn(host: Host, q: Queue, name: string): (r: Queue)
    ensures |r| <= |q|
  {
    if q == [] then []
    else if Eligible(host, q[0].handler, name) then [q[0]] + EligibleIn(host, q[1..], name)
    else EligibleIn(host, q[1..], name)
  }

  /** One handler invocation: the entry invoked, what it returned, and
      whether the event was stopped right after it. */
  datatype Call = Call(entry: Entry, returned: Status, stoppedAfter: bool)

  /** The entries invoked, in invocation order. */
  function Invoked(calls: seq<Call>): (r: Queue)
    ensures |r| == |calls|
  {
    if calls == [] then [] else [calls[0].entry] + Invoked(calls[1..])
  }

  /** The values returned, in invocation order. */
  function Returns(calls: seq<Call>): (r: seq<Status>)
    ensures |r| == |calls|
  {
    if calls == [] then [] else [calls[0].returned] + Returns(calls[1..])
  }

  /** The last returned value, or `status` when nothing was invoked. */
  function LastReturned(calls: seq<Call>, status: Status): Status {
    if calls == [] then status else calls[|calls| - 1].returned
  }

  /** The stop flag the `i`-th call of a pass saw: the one the pass started
      with for the first call, the one the previous call left otherwise. */
  function StoppedBefore(ev: Event, calls: seq<Call>, i: nat): bool
    requires i < |calls|
  {
    if i == 0 then ev.stopped else calls[i - 1].stoppedAfter
  }

  /** `c` records what the handler's body yields on the event `before`: its
      return value, and the stop flag afterwards (already stopped, or
      stopped by this body). */
  predicate Reported(host: Host, before: Event, c: Call) {
    && c.returned == host.invoke(c.entry.handler, before).returned
    && c.stoppedAfter == (before.stopped || host.invoke(c.entry.handler, before).stops)
  }

  /** `ev` with its stop flag set to `stopped`. */
  function WithStop(ev: Event, stopped: bool): Event {
    Event(ev.name, ev.cancelable, stopped)
  }

  /** Every call of a pass over `ev` records its handler's body, run on the
      event as the earlier calls left it. */
  predicate FollowsHandlers(host: Host, ev: Event, calls: seq<Call>) {
    forall i :: 0 <= i < |calls| ==> CallFollows(host, ev, calls, i)
  }

  /** The `i`-th call records its body, run on the event as the calls
      before it left it. */
  predicate CallFollows(host: Host, ev: Event, calls: seq<Call>, i: nat)
    requires i < |calls|
  {
    Reported(host, WithStop(ev, StoppedBefore(ev, calls, i)), calls[i])
  }

  /** The outcome of the loop of one pass: the last status, the shared
      event, the invocations and the manager's `responses`. */
  datatype Pass = Pass(status: Status, event: Event, calls: seq<Call>, responses: seq<Status>)

  /** The `while` loop of `firePriorityQueue` (src/Manager.php:188-214) over
      the rest `q` of the cloned queue, with the shared event `ev` and the
      last status so far. The stop flag is read only after an invocation
      (line 211), so a pass that starts on a stopped event still invokes
      its first eligible handler. */
  function RunQueue(host: Host, q: Queue, ev: Event, status: Status, collect: bool, responses: seq<Status>): (p: Pass)
    ensures p.status == LastReturned(p.calls, status)
    decreases |q|
  {
    if q == [] then Pass(status, ev, [], responses)
    else if !Eligible(host, q[0].handler, ev.name) then RunQueue(host, q[1..], ev, status, collect, responses)
    else
      var reaction := host.invoke(q[0].handler, ev);
      var ev' := ev.(stopped := ev.stopped || reaction.stops);
      var call := Call(q[0], reaction.returned, ev'.stopped);
      var responses' := if collect then responses + [reaction.returned] else responses;
      if ev.cancelable && ev'.stopped then Pass(reaction.returned, ev', [call], responses')
      else
        var rest := RunQueue(host, q[1..], ev', reaction.returned, collect, responses');
        Pass(rest.status, rest.event, [call] + rest.calls, rest.responses)
  }

  /** The pass hands back the event it was given, with the stop flag the
      last invocation left (unchanged when nothing was invoked). */
  lemma {:induction false} RunEvent(host: Host, q: Queue, ev: Event, status: Status, collect: bool, responses: seq<Status>)
    ensures var p := RunQueue(host, q, ev, status, collect, responses);
      && p.event.name == ev.name && p.event.cancelable == ev.cancelable
      && p.event.stopped == if p.calls == [] then ev.stopped else p.calls[|p.calls| - 1].stoppedAfter
    decreases |q|
  {
    if q != [] {
      if !Eligible(host, q[0].handler, ev.name) {
        RunEvent(host, q[1..], ev, status, collect, responses);
      } else {
        var reaction := host.invoke(q[0].handler, ev);
        var ev' := ev.(stopped := ev.stopped || reaction.stops);
        var responses' := if collect then responses + [reaction.returned] else responses;
        if !(ev.cancelable && ev'.stopped) {
          RunEvent(host, q[1..], ev', reaction.returned, collect, responses');
        }
      }
    }
  }

  /** The calls of a pass are what the handlers' bodies yield, each run on
      the shared event with the stop flag the earlier calls left. */
  lemma {:induction false} RunFollowsHandlers(host: Host, q: Queue, ev: Event, status: Status, collect: bool, responses: seq<Status>)
    ensures FollowsHandlers(host, ev, RunQueue(host, q, ev, status, collect, responses).calls)
    decreases |q|
  {
    if q != [] {
      if !Eligible(host, q[0].handler, ev.name) {
        RunFollowsHandlers(host, q[1..], ev, status, collect, responses);
      } else {
        var reaction := host.invoke(q[0].handler, ev);
        var ev' := ev.(stopped := ev.stopped || reaction.stops);
        var call := Call(q[0], reaction.returned, ev'.stopped);
        var responses' := if collect then responses + [reaction.returned] else responses;
        var calls := RunQueue(host, q, ev, status, collect, responses).calls;
        assert Reported(host, ev, call);
        if !(ev.cancelable && ev'.stopped) {
          var rest := RunQueue(host, q[1..], ev', reaction.returned, collect, responses').calls;
          RunFollowsHandlers(host, q[1..], ev', reaction.returned, collect, responses');
          assert calls == [call] + rest;
          FollowsCons(host, ev, call, rest);
        } else {
          assert calls == [call];
          FollowsCons(host, ev, call, []);
        }
      }
    }
  }

  /** A call that records its body on `ev`, followed by calls that follow
      the handlers from the event it left, follow the handlers from `ev`. */
  lemma FollowsCons(host: Host, ev: Event, call: Call, rest: seq<Call>)
    requires Reported(host, ev, call)
    requires FollowsHandlers(host, WithStop(ev, call.stoppedAfter), rest)
    ensures FollowsHandlers(host, ev, [call] + rest)
  {
    var calls := [call] + rest;
    var ev' := WithStop(ev, call.stoppedAfter);
    forall i | 0 <= i < |calls| ensures CallFollows(host, ev, calls, i) {
      if i == 0 {
        assert WithStop(ev, ev.stopped) == ev;
      } else {
        assert CallFollows(host, ev', rest, i - 1);
        assert calls[i] == rest[i - 1];
        assert StoppedBefore(ev, calls, i) == StoppedBefore(ev', rest, i - 1);
      }
    }
  }

  /** A pass invokes a prefix of the eligible entries, in queue order; with
      a non-cancelable event it invokes all of them. */
  lemma {:induction false} RunInvokesEligiblePrefix(host: Host, q: Queue, ev: Event, status: Status, collect: bool, responses: seq<Status>)
    ensures Invoked(RunQueue(host, q, ev, status, collect, responses).calls) <= EligibleIn(host, q, ev.name)
    ensures !ev.cancelable ==> Invoked(RunQueue(host, q, ev, status, collect, responses).calls) == EligibleIn(host, q, ev.name)
    decreases |q|
  {
    if q != [] {
      var p := RunQueue(host, q, ev, status, collect, responses);
      if !Eligible(host, q[0].handler, ev.name) {
        assert EligibleIn(host, q, ev.name) == EligibleIn(host, q[1..], ev.name);
        RunInvokesEligiblePrefix(host, q[1..], ev, status, collect, responses);
      } else {
        var reaction := host.invoke(q[0].handler, ev);
        var ev' := ev.(stopped := ev.stopped || reaction.stops);
        var call := Call(q[0], reaction.returned, ev'.stopped);
        var responses' := if collect then responses + [reaction.returned] else responses;
        assert EligibleIn(host, q, ev.name) == [q[0]] + EligibleIn(host, q[1..], ev.name);
        if !(ev.cancelable && ev'.stopped) {
          var rest := RunQueue(host, q[1..], ev', reaction.returned, collect, responses');
          assert p.calls == [call] + rest.calls;
          RunInvokesEligiblePrefix(host, q[1..], ev', reaction.returned, collect, responses');
          assert Invoked([call] + rest.calls) == [q[0]] + Invoked(rest.calls);
        } else {
          assert p.calls == [call];
          assert Invoked([call]) == [q[0]];
        }
      }
    }
  }

  /** Once stopped, an event stays stopped: every call of a pass that
      starts stopped ends stopped. */
  lemma {:induction false} RunStaysStopped(host: Host, q: Queue, ev: Event, status: Status, collect: bool, responses: seq<Status>)
    requires ev.stopped
    ensures forall i :: 0 <= i < |RunQueue(host, q, ev, status, collect, responses).calls| ==> RunQueue(host, q, ev, status, collect, responses).calls[i].stoppedAfter
    decreases |q|
  {
    if q != [] {
      if !Eligible(host, q[0].handler, ev.name) {
        RunStaysStopped(host, q[1..], ev, status, collect, responses);
      } else if !ev.cancelable {
        var reaction := host.invoke(q[0].handler, ev);
        var responses' := if collect then responses + [reaction.returned] else responses;
        RunStaysStopped(host, q[1..], ev.(stopped := true), reaction.returned, collect, responses');
      }
    }
  }

  /** In calls that follow the handlers, a stop flag once set stays set:
      every later call sees a stopped event. */
  lemma {:induction false} FollowsStopSticks(host: Host, ev: Event, calls: seq<Call>, i: nat, j: nat)
    requires FollowsHandlers(host, ev, calls) && i < j < |calls| && calls[i].stoppedAfter
    ensures calls[j].stoppedAfter
    decreases j
  {
    if i < j - 1 {
      FollowsStopSticks(host, ev, calls, i, j - 1);
    }
    assert CallFollows(host, ev, calls, j);
  }

  /** Once a handler stops the event, it stays stopped for the rest of the
      pass, also when it was not stopped at the start; with a non-cancelable
      event the pass goes on over a stopped event. */
  lemma RunStopSticks(host: Host, q: Queue, ev: Event, status: Status, collect: bool, responses: seq<Status>)
    ensures var calls := RunQueue(host, q, ev, status, collect, responses).calls;
      forall i, j :: 0 <= i < j < |calls| && calls[i].stoppedAfter ==> calls[j].stoppedAfter
  {
    var calls := RunQueue(host, q, ev, status, collect, responses).calls;
    RunFollowsHandlers(host, q, ev, status, collect, responses);
    forall i, j | 0 <= i < j < |calls| && calls[i].stoppedAfter
      ensures calls[j].stoppedAfter
    {
      FollowsStopSticks(host, ev, calls, i, j);
    }
  }

  /** Every eligible entry comes from the queue and is eligible. */
  lemma {:induction false} EligibleInSpec(host: Host, q: Queue, name: string)
    ensures forall i :: 0 <= i < |EligibleIn(host, q, name)| ==>
      EligibleIn(host, q, name)[i] in q && Eligible(host, EligibleIn(host, q, name)[i].handler, name)
    decreases |q|
  {
    if q != [] {
      EligibleInSpec(host, q[1..], name);
      var t := EligibleIn(host, q[1..], name);
      if Eligible(host, q[0].handler, name) {
        var r := [q[0]] + t;
        forall i | 0 <= i < |r| ensures r[i] in q && Eligible(host, r[i].handler, name) {
          if i > 0 {
            assert r[i] == t[i - 1];
            assert t[i - 1] in q[1..];
          }
        }
      } else {
        forall i | 0 <= i < |t| ensures t[i] in q {
          assert t[i] in q[1..];
        }
      }
    }
  }

  /** The filter keeps every eligible entry as often as it is queued and
      drops every other one. */
  lemma {:induction false} EligibleInCount(host: Host, q: Queue, name: string)
    ensures forall x ::
      multiset(EligibleIn(host, q, name))[x] == if Eligible(host, x.handler, name) then multiset(q)[x] else 0
    decreases |q|
  {
    if q != [] {
      EligibleInCount(host, q[1..], name);
      assert q == [q[0]] + q[1..];
    }
  }

  /** Filtering keeps a bound on the priorities. */
  lemma {:induction false} EligibleAtMost(host: Host, q: Queue, name: string, p: int)
    requires AtMost(q, p)
    ensures AtMost(EligibleIn(host, q, name), p)
    decreases |q|
  {
    if q != [] {
      assert AtMost(q[1..], p) by {
        forall i | 0 <= i < |q[1..]| ensures q[1..][i].priority <= p {
          assert q[1..][i] == q[i + 1];
        }
      }
      EligibleAtMost(host, q[1..], name, p);
      if Eligible(host, q[0].handler, name) {
        var t := EligibleIn(host, q[1..], name);
        var r := [q[0]] + t;
        forall i | 0 <= i < |r| ensures r[i].priority <= p {
          if i > 0 {
            assert r[i] == t[i - 1];
          }
        }
      }
    }
  }

  /** Filtering keeps the queue's extraction order. */
  lemma {:induction false} EligibleSorted(host: Host, q: Queue, name: string)
    requires Sorted(q)
    ensures Sorted(EligibleIn(host, q, name))
    decreases |q|
  {
    if q != [] {
      SortedTail(q);
      EligibleSorted(host, q[1..], name);
      if Eligible(host, q[0].handler, name) {
        EligibleAtMost(host, q[1..], name, q[0].priority);
        ConsSorted(q[0], EligibleIn(host, q[1..], name));
      }
    }
  }

  /** With a cancelable event, a pass ends early only because the event was
      stopped by the last handler it invoked; before that, no invocation
      left the event stopped. */
  lemma {:induction false} RunCancelStops(host: Host, q: Queue, ev: Event, status: Status, collect: bool, responses: seq<Status>)
    requires ev.cancelable
    ensures var calls := RunQueue(host, q, ev, status, collect, responses).calls;
      && (forall i :: 0 <= i < |calls| - 1 ==> !calls[i].stoppedAfter)
      && (|calls| < |EligibleIn(host, q, ev.name)| ==> calls != [] && calls[|calls| - 1].stoppedAfter)
    decreases |q|
  {
    if q != [] {
      var p := RunQueue(host, q, ev, status, collect, responses);
      if !Eligible(host, q[0].handler, ev.name) {
        assert EligibleIn(host, q, ev.name) == EligibleIn(host, q[1..], ev.name);
        RunCancelStops(host, q[1..], ev, status, collect, responses);
      } else {
        var reaction := host.invoke(q[0].handler, ev);
        var ev' := ev.(stopped := ev.stopped || reaction.stops);
        var call := Call(q[0], reaction.returned, ev'.stopped);
        var responses' := if collect then responses + [reaction.returned] else responses;
        assert |EligibleIn(host, q, ev.name)| == 1 + |EligibleIn(host, q[1..], ev.name)|;
        if !ev'.stopped {
          var rest := RunQueue(host, q[1..], ev', reaction.returned, collect, responses');
          assert p.calls == [call] + rest.calls;
          RunCancelStops(host, q[1..], ev', reaction.returned, collect, responses');
        } else {
          assert p.calls == [call];
        }
      }
    }
  }

  /** The stop flag is checked only after an invocation: a cancelable pass
      that starts on an already stopped event still invokes exactly one
      handler, the first eligible one. */
  lemma {:induction false} RunStartsStopped(host: Host, q: Queue, ev: Event, status: Status, collect: bool, responses: seq<Status>)
    requires ev.cancelable && ev.stopped && EligibleIn(host, q, ev.name) != []
    ensures Invoked(RunQueue(host, q, ev, status, collect, responses).calls) == [EligibleIn(host, q, ev.name)[0]]
    decreases |q|
  {
    if !Eligible(host, q[0].handler, ev.name) {
      assert EligibleIn(host, q, ev.name) == EligibleIn(host, q[1..], ev.name);
      RunStartsStopped(host, q[1..], ev, status, collect, responses);
    } else {
      assert EligibleIn(host, q, ev.name)[0] == q[0];
      assert Invoked([Call(q[0], host.invoke(q[0].handler, ev).returned, true)]) == [q[0]];
    }
  }

  /** With `collect`, the pass appends exactly the returned values, in
      invocation order; without it, `responses` is untouched. */
  lemma {:induction false} RunCollects(host: Host, q: Queue, ev: Event, status: Status, collect: bool, responses: seq<Status>)
    ensures var p := RunQueue(host, q, ev, status, collect, responses);
      p.responses == if collect then responses + Returns(p.calls) else responses
    decreases |q|
  {
    if q != [] {
      var p := RunQueue(host, q, ev, status, collect, responses);
      if !Eligible(host, q[0].handler, ev.name) {
        RunCollects(host, q[1..], ev, status, collect, responses);
      } else {
        var reaction := host.invoke(q[0].handler, ev);
        var ev' := ev.(stopped := ev.stopped || reaction.stops);
        var call := Call(q[0], reaction.returned, ev'.stopped);
        var responses' := if collect then responses + [reaction.returned] else responses;
        if !(ev.cancelable && ev'.stopped) {
          var rest := RunQueue(host, q[1..], ev', reaction.returned, collect, responses');
          assert p.calls == [call] + rest.calls;
          RunCollects(host, q[1..], ev', reaction.returned, collect, responses');
          assert Returns([call] + rest.calls) == [reaction.returned] + Returns(rest.calls);
          if collect {
            assert responses' + Returns(rest.calls) == responses + ([reaction.returned] + Returns(rest.calls));
          }
        } else {
          assert p.calls == [call];
          assert Returns([call]) == [reaction.returned];
        }
      }
    }
  }

  /** Handlers of a pass over a queue in extraction order are invoked in
      non-increasing priority order. */
  lemma RunInPriorityOrder(host: Host, q: Queue, ev: Event, status: Status, collect: bool, responses: seq<Status>)
    requires Sorted(q)
    ensures Sorted(Invoked(RunQueue(host, q, ev, status, collect, responses).calls))
  {
    RunInvokesEligiblePrefix(host, q, ev, status, collect, responses);
    EligibleSorted(host, q, ev.name);
    var inv := Invoked(RunQueue(host, q, ev, status, collect, responses).calls);
    var el := EligibleIn(host, q, ev.name);
    assert inv == el[..|inv|];
    forall i, j | 0 <= i < j < |inv| ensures inv[i].priority >= inv[j].priority {
      assert inv[i] == el[i] && inv[j] == el[j];
    }
  }

  /** What one `firePriorityQueue` call yields: the state afterwards, the
      status or the exception, the event and the invocations. */
  datatype Fired = Fired(m: Manager, result: Result<Status>, event: Event, calls: seq<Call>)

  /** `firePriorityQueue` (src/Manager.php:172-217): `top()` on a copy of `q`
      (line 186), which throws on an empty queue, then the loop over that
      copy from a `null` status. The check that the event name is a string
      (line 175) always passes here, since names are strings. */
  function FirePriorityQueue(host: Host, m: Manager, q: Queue, ev: Event): (r: Fired)
    ensures q == [] ==> r == Fired(m, Err(EmptyHeap), ev, [])
    ensures q != [] ==> r.result == Ok(LastReturned(r.calls, Null))
    ensures FollowsHandlers(host, ev, r.calls)
    ensures r.m.events == m.events && r.m.collect == m.collect && r.m.enablePriorities == m.enablePriorities
    ensures r.m.responses == if m.collect then m.responses + Returns(r.calls) else m.responses
  {
    if q == [] then Fired(m, Err(EmptyHeap), ev, [])
    else
      var p := RunQueue(host, q, ev, Null, m.collect, m.responses);
      RunCollects(host, q, ev, Null, m.collect, m.responses);
      RunFollowsHandlers(host, q, ev, Null, m.collect, m.responses);
      Fired(m.(responses := p.responses), Ok(p.status), p.event, p.calls)
  }

  /** What one `fireEvents` call yields: the status it returns (after the
      `?bool` return coercion) or the exception of the pass or of that
      coercion. */
  datatype PassResult = PassResult(m: Manager, result: Result<Status>, event: Event, calls: seq<Call>)

  /** `fireEvents` (src/Manager.php:157-166): fire the queue of `key` if
      there is one, otherwise keep the incoming status; either way the
      status is returned as `?bool`. */
  function FireEvents(host: Host, m: Manager, key: string, ev: Event, status: Status): (r: PassResult)
    ensures !HasQueue(m, key) ==> r == PassResult(m, AsNullableBool(status), ev, [])
    ensures EmptyStored(m, key) ==> r == PassResult(m, Err(EmptyHeap), ev, [])
    ensures HasQueue(m, key) && QueueAt(m, key) != [] ==> r.result == AsNullableBool(LastReturned(r.calls, Null))
    ensures FollowsHandlers(host, ev, r.calls)
    ensures r.m.events == m.events && r.m.collect == m.collect && r.m.enablePriorities == m.enablePriorities
    ensures r.m.responses == if m.collect then m.responses + Returns(r.calls) else m.responses
  {
    if HasQueue(m, key) then
      var f := FirePriorityQueue(host, m, m.events.value[key], ev);
      PassResult(f.m, if f.result.Err? then f.result else AsNullableBool(f.result.value), f.event, f.calls)
    else PassResult(m, AsNullableBool(status), ev, [])
  }

  /** What `fire` yields: the state afterwards, the returned status or the
      exception, and the invocations of the group pass and of the full-key
      pass. */
  datatype Dispatched = Dispatched(m: Manager, result: Result<Status>, groupCalls: seq<Call>, fullCalls: seq<Call>)

  /** The manager as `fire` starts its passes: `responses` is reset when
      collecting (src/Manager.php:139-141). */
  function Reset(m: Manager): Manager {
    if m.collect then m.(responses := []) else m
  }

  /** The group pass of `fire` (src/Manager.php:143-145): a fresh event
      named by the second `explode` segment, fired on the group key. */
  function GroupPass(host: Host, m: Manager, eventType: string, cancelable: bool): PassResult
    requires IsEventType(eventType)
  {
    FireEvents(host, Reset(m), Group(eventType), Event(EventName(eventType), cancelable, false), Null)
  }

  /** The group pass hands on a fresh event named by the second segment:
      stopped only when its last invocation left it stopped. */
  lemma GroupPassEvent(host: Host, m: Manager, eventType: string, cancelable: bool)
    requires IsEventType(eventType)
    ensures var g := GroupPass(host, m, eventType, cancelable);
      && g.event.name == EventName(eventType) && g.event.cancelable == cancelable
      && g.event.stopped == (g.calls != [] && g.calls[|g.calls| - 1].stoppedAfter)
  {
    var ev := Event(EventName(eventType), cancelable, false);
    FireEventsRuns(host, Reset(m), Group(eventType), ev, Null);
    RunEvent(host, QueueAt(Reset(m), Group(eventType)), ev, Null, m.collect, Reset(m).responses);
  }

  /** `fire` (src/Manager.php:132-149). After the format check, an
      uninitialised registry yields `null`; otherwise the group key and then
      the full key are fired with the same event. */
  function Fire(host: Host, m: Manager, eventType: string, cancelable: bool): (r: Dispatched)
    ensures !IsEventType(eventType) ==> r == Dispatched(m, Err(InvalidEventType), [], [])
    ensures IsEventType(eventType) && m.events.None? ==> r == Dispatched(m, Ok(Null), [], [])
    ensures r.m.events == m.events && r.m.collect == m.collect && r.m.enablePriorities == m.enablePriorities
    ensures r.result.Err? && IsEventType(eventType) ==> r.result.error == TypeError || r.result.error == EmptyHeap
    ensures IsEventType(eventType) && !HasQueue(m, Group(eventType)) ==> r.groupCalls == []
    ensures !HasQueue(m, eventType) ==> r.fullCalls == []
  {
    if !IsEventType(eventType) then Dispatched(m, Err(InvalidEventType), [], [])
    else if m.events.None? then Dispatched(m, Ok(Null), [], [])
    else
      var g := GroupPass(host, m, eventType, cancelable);
      if g.result.Err? then Dispatched(g.m, g.result, g.calls, [])
      else
        var f := FireEvents(host, g.m, eventType, g.event, g.result.value);
        Dispatched(f.m, f.result, g.calls, f.calls)
  }

  /** Both passes of `fire` follow the handlers' bodies: the group pass from
      the fresh event, the full-key pass from the event the group pass left. */
  lemma FireFollowsHandlers(host: Host, m: Manager, eventType: string, cancelable: bool)
    requires IsEventType(eventType)
    ensures var r := Fire(host, m, eventType, cancelable);
      && FollowsHandlers(host, Event(EventName(eventType), cancelable, false), r.groupCalls)
      && FollowsHandlers(host, GroupPass(host, m, eventType, cancelable).event, r.fullCalls)
  {
    if m.events.Some? {
      var g := GroupPass(host, m, eventType, cancelable);
      if g.result.Ok? {
        var f := FireEvents(host, g.m, eventType, g.event, g.result.value);
        assert Fire(host, m, eventType, cancelable).fullCalls == f.calls;
      }
    }
  }

  /** `fire` fails with the empty-heap exception exactly when it peeks at an
      empty stored queue: always when the group key holds one, and otherwise
      only when the full key does. */
  lemma FireEmptyHeap(host: Host, m: Manager, eventType: string, cancelable: bool)
    requires IsEventType(eventType)
    ensures Fire(host, m, eventType, cancelable).result == Err(EmptyHeap) ==>
      EmptyStored(m, Group(eventType)) || EmptyStored(m, eventType)
    ensures EmptyStored(m, Group(eventType)) ==> Fire(host, m, eventType, cancelable).result == Err(EmptyHeap)
  {
    if m.events.Some? {
      var g := GroupPass(host, m, eventType, cancelable);
      assert g.result == Err(EmptyHeap) ==> EmptyStored(m, Group(eventType)) by {
        assert QueueAt(Reset(m), Group(eventType)) == QueueAt(m, Group(eventType));
        assert HasQueue(Reset(m), Group(eventType)) == HasQueue(m, Group(eventType));
        assert AsNullableBool(Null) == Ok(Null);
      }
      if g.result.Ok? {
        var f := FireEvents(host, g.m, eventType, g.event, g.result.value);
        assert f.result == Err(EmptyHeap) ==> EmptyStored(m, eventType) by {
          assert QueueAt(g.m, eventType) == QueueAt(m, eventType);
          assert HasQueue(g.m, eventType) == HasQueue(m, eventType);
        }
      }
    }
  }

  /** On a registry that stores no empty queue, as the pruning `detach`
      keeps it, `fire` never fails with the empty-heap exception. */
  lemma FireNeverPeeksEmpty(host: Host, m: Manager, eventType: string, cancelable: bool)
    requires IsEventType(eventType) && NoEmptyQueue(m)
    ensures Fire(host, m, eventType, cancelable).result != Err(EmptyHeap)
  {
    FireEmptyHeap(host, m, eventType, cancelable);
  }

  /** With `collect`, `fire` leaves in `responses` exactly the values the
      group pass and then the full-key pass returned, in invocation order
      (the earlier contents are discarded); without it, `responses` is
      untouched. */
  lemma FireCollects(host: Host, m: Manager, eventType: string, cancelable: bool)
    requires IsEventType(eventType) && m.events.Some?
    ensures var r := Fire(host, m, eventType, cancelable);
      r.m.responses == if m.collect then Returns(r.groupCalls) + Returns(r.fullCalls) else m.responses
  {
    var g := GroupPass(host, m, eventType, cancelable);
    var r := Fire(host, m, eventType, cancelable);
    if m.collect {
      assert g.m.responses == Returns(g.calls) by {
        assert [] + Returns(g.calls) == Returns(g.calls);
      }
    }
    if g.result.Ok? {
      var f := FireEvents(host, g.m, eventType, g.event, g.result.value);
      assert r == Dispatched(f.m, f.result, g.calls, f.calls);
    } else {
      assert r == Dispatched(g.m, g.result, g.calls, []);
      assert Returns(g.calls) + Returns([]) == Returns(g.calls);
    }
  }

  /** The status `fire` returns: that of the full-key pass whenever the
      full key has a queue, even `null` when none of its handlers ran;
      otherwise that of the group pass; `null` when neither key has a queue. */
  lemma FireStatus(host: Host, m: Manager, eventType: string, cancelable: bool)
    requires IsEventType(eventType) && Fire(host, m, eventType, cancelable).result.Ok?
    ensures var r := Fire(host, m, eventType, cancelable);
      r.result == if HasQueue(m, eventType) then AsNullableBool(LastReturned(r.fullCalls, Null))
                  else if HasQueue(m, Group(eventType)) then AsNullableBool(LastReturned(r.groupCalls, Null))
                  else Ok(Null)
  {
    if m.events.Some? {
      var r := Fire(host, m, eventType, cancelable);
      var g := GroupPass(host, m, eventType, cancelable);
      assert g.result.Ok? && r.groupCalls == g.calls;
      var f := FireEvents(host, g.m, eventType, g.event, g.result.value);
      assert r == Dispatched(f.m, f.result, g.calls, f.calls);
      GroupIsNotFullKey(eventType);
      assert HasQueue(g.m, eventType) == HasQueue(m, eventType);
      assert QueueAt(g.m, eventType) == QueueAt(m, eventType);
      if !HasQueue(m, eventType) {
        assert f.result == AsNullableBool(g.result.value);
        assert g.result == AsNullableBool(g.result.value);
        assert HasQueue(Reset(m), Group(eventType)) == HasQueue(m, Group(eventType));
        assert QueueAt(Reset(m), Group(eventType)) == QueueAt(m, Group(eventType));
      }
    }
  }

  /** With neither key registered, `fire` invokes nothing and returns `null`. */
  lemma FireWithoutQueues(host: Host, m: Manager, eventType: string, cancelable: bool)
    requires IsEventType(eventType)
    requires !HasQueue(m, Group(eventType)) && !HasQueue(m, eventType)
    ensures var r := Fire(host, m, eventType, cancelable);
      r.result == Ok(Null) && r.groupCalls == [] && r.fullCalls == []
  {
  }

  /** A `fireEvents` pass is the loop of `firePriorityQueue` over the key's
      queue, started from a `null` status with the current `responses`. */
  lemma FireEventsRuns(host: Host, m: Manager, key: string, ev: Event, status: Status)
    ensures var r := FireEvents(host, m, key, ev, status);
      var p := RunQueue(host, QueueAt(m, key), ev, Null, m.collect, m.responses);
      HasQueue(m, key) ==> r.calls == p.calls && r.event == p.event
  {
  }

  /** A pass invokes, in queue order, a prefix of the eligible entries of
      its key's queue, all of them when the event is not cancelable, and in
      non-increasing priority order when the queue is in extraction order. */
  lemma FireEventsInvokes(host: Host, m: Manager, key: string, ev: Event, status: Status)
    ensures var r := FireEvents(host, m, key, ev, status);
      && Invoked(r.calls) <= EligibleIn(host, QueueAt(m, key), ev.name)
      && (!ev.cancelable ==> Invoked(r.calls) == EligibleIn(host, QueueAt(m, key), ev.name))
      && (Sorted(QueueAt(m, key)) ==> Sorted(Invoked(r.calls)))
  {
    FireEventsRuns(host, m, key, ev, status);
    RunInvokesEligiblePrefix(host, QueueAt(m, key), ev, Null, m.collect, m.responses);
    if Sorted(QueueAt(m, key)) {
      RunInPriorityOrder(host, QueueAt(m, key), ev, Null, m.collect, m.responses);
    }
  }

  /** A pass that starts on a stopped cancelable event invokes the first
      eligible entry of its key's queue, and only that one. */
  lemma FireEventsAfterStopped(host: Host, m: Manager, key: string, ev: Event, status: Status)
    requires ev.cancelable && ev.stopped
    ensures var eligible := EligibleIn(host, QueueAt(m, key), ev.name);
      Invoked(FireEvents(host, m, key, ev, status).calls) == if eligible == [] then [] else [eligible[0]]
  {
    FireEventsRuns(host, m, key, ev, status);
    FireEventsInvokes(host, m, key, ev, status);
    if EligibleIn(host, QueueAt(m, key), ev.name) != [] {
      RunStartsStopped(host, QueueAt(m, key), ev, Null, m.collect, m.responses);
    }
  }

  /** With a non-cancelable event, `fire` invokes every eligible handler of
      the group key and then every eligible handler of the full key, each
      group in its queue's order: the group pass always comes first, however
      high the full key's priorities. */
  lemma FireGroupThenFull(host: Host, m: Manager, eventType: string)
    requires IsEventType(eventType) && m.events.Some?
    requires GroupPass(host, m, eventType, false).result.Ok?
    ensures var r := Fire(host, m, eventType, false);
      Invoked(r.groupCalls) + Invoked(r.fullCalls) ==
        EligibleIn(host, QueueAt(m, Group(eventType)), EventName(eventType)) +
        EligibleIn(host, QueueAt(m, eventType), EventName(eventType))
  {
    var name := EventName(eventType);
    var r := Fire(host, m, eventType, false);
    var g := GroupPass(host, m, eventType, false);
    assert r.groupCalls == g.calls;
    assert Invoked(g.calls) == EligibleIn(host, QueueAt(m, Group(eventType)), name) by {
      FireEventsInvokes(host, Reset(m), Group(eventType), Event(name, false, false), Null);
      assert QueueAt(Reset(m), Group(eventType)) == QueueAt(m, Group(eventType));
    }
    assert !g.event.cancelable && g.event.name == name by {
      GroupPassEvent(host, m, eventType, false);
    }
    assert Invoked(r.fullCalls) == EligibleIn(host, QueueAt(m, eventType), name) by {
      FireEventsInvokes(host, g.m, eventType, g.event, g.result.value);
      assert QueueAt(g.m, eventType) == QueueAt(m, eventType);
    }
  }

  /** On a well-formed registry each pass of `fire` invokes its handlers in
      non-increasing priority order. */
  lemma FireInPriorityOrder(host: Host, m: Manager, eventType: string, cancelable: bool)
    requires IsEventType(eventType) && WellFormed(m)
    ensures var r := Fire(host, m, eventType, cancelable);
      Sorted(Invoked(r.groupCalls)) && Sorted(Invoked(r.fullCalls))
  {
    if m.events.Some? {
      var r := Fire(host, m, eventType, cancelable);
      var g := GroupPass(host, m, eventType, cancelable);
      assert r.groupCalls == g.calls;
      assert Sorted(Invoked(g.calls)) by {
        assert Sorted(QueueAt(Reset(m), Group(eventType)));
        FireEventsInvokes(host, Reset(m), Group(eventType), Event(EventName(eventType), cancelable, false), Null);
      }
      if g.result.Ok? {
        assert Sorted(Invoked(r.fullCalls)) by {
          assert Sorted(QueueAt(g.m, eventType));
          FireEventsInvokes(host, g.m, eventType, g.event, g.result.value);
        }
      }
    }
  }

  /** The event is shared by both passes and its stop flag is read only
      after an invocation: when the group pass of a cancelable `fire` ends
      with the event stopped, the full-key pass still invokes its first
      eligible handler, and only that one. */
  lemma FireAfterGroupStopped(host: Host, m: Manager, eventType: string)
    requires IsEventType(eventType) && m.events.Some?
    requires var r := Fire(host, m, eventType, true);
      r.groupCalls != [] && r.groupCalls[|r.groupCalls| - 1].stoppedAfter
    requires GroupPass(host, m, eventType, true).result.Ok?
    ensures var r := Fire(host, m, eventType, true);
      var eligible := EligibleIn(host, QueueAt(m, eventType), EventName(eventType));
      Invoked(r.fullCalls) == if eligible == [] then [] else [eligible[0]]
  {
    var g := GroupPass(host, m, eventType, true);
    assert Fire(host, m, eventType, true).groupCalls == g.calls;
    GroupPassEvent(host, m, eventType, true);
    FireEventsAfterStopped(host, g.m, eventType, g.event, g.result.value);
    assert QueueAt(g.m, eventType) == QueueAt(m, eventType);
  }
}

=== FILE: event_types.dfy ===
/** Event-type strings `"<group>:<name>"`: the format check and the split
    `fire` performs with `explode(':', ...)`. */
module EventTypes {
  import opened Outcomes

  /** The only format requirement: at least one `:`. Further colons are accepted. */
  predicate IsEventType(s: string) {
    ':' in s
  }

  /** `checkEventType` (src/Manager.php:223-230): `true`, or the
      "Event type is not valid" exception when `s` holds no colon. */
  function CheckEventType(s: string): (r: Result<bool>)
    ensures r.Ok? <==> exists i :: 0 <= i < |s| && s[i] == ':'
    ensures r.Ok? ==> r.value
    ensures r.Err? ==> r.error == InvalidEventType
  {
    if ':' in s then Ok(true) else Err(InvalidEventType)
  }

  /** Position of the first `:` in `s`, or `|s|` when there is none. */
  function ColonIndex(s: string): (i: nat)
    ensures i <= |s|
    ensures i < |s| ==> s[i] == ':'
    ensures ':' !in s[..i]
    ensures i == |s| <==> ':' !in s
  {
    if s == [] then 0
    else if s[0] == ':' then 0
    else
      var j := ColonIndex(s[1..]);
      assert s[..j + 1] == [s[0]] + s[1..][..j];
      j + 1
  }

  /** First segment of `explode(':', s)`: the group key fired first. */
  function Group(s: string): (g: string)
    requires IsEventType(s)
    ensures ':' !in g
    ensures |g| < |s| && s == g + ":" + s[|g| + 1..]
  {
    s[..ColonIndex(s)]
  }

  /** Everything after the first `:`. */
  function AfterGroup(s: string): (t: string)
    requires IsEventType(s)
    ensures s == Group(s) + ":" + t
  {
    s[ColonIndex(s) + 1..]
  }

  /** Second segment of `explode(':', s)`: the event name, which is also the
      method name looked up on handler objects (src/Manager.php:143). */
  function EventName(s: string): (n: string)
    requires IsEventType(s)
    ensures ':' !in n
    ensures n <= AfterGroup(s)
    ensures |n| == |AfterGroup(s)| || AfterGroup(s)[|n|] == ':'
  {
    var t := AfterGroup(s);
    t[..ColonIndex(t)]
  }

  /** The group key never equals the full key, so the two passes of `fire`
      always look up two different queues. */
  lemma GroupIsNotFullKey(s: string)
    requires IsEventType(s)
    ensures Group(s) != s
  {
    assert ':' in s;
    assert ':' !in Group(s);
  }

  /** `explode` round trip: joining colon-free parts and splitting again
      recovers the group and the name, however many colons follow the name. */
  lemma {:induction false} SplitJoin(g: string, n: string, tail: string)
    requires ':' !in g && ':' !in n
    ensures IsEventType(g + ":" + n + tail)
    ensures Group(g + ":" + n + tail) == g
    ensures tail == [] || tail[0] == ':' ==> EventName(g + ":" + n + tail) == n
  {
    var s := g + ":" + n + tail;
    var b := ":" + n + tail;
    assert s == g + b;
    assert b[0] == ':';
    ColonPrefix(g, b);
    assert s[..|g|] == g;
    var t := s[|g| + 1..];
    assert t == n + tail;
    if tail == [] {
      assert t == n;
      ColonAbsent(n);
    } else if tail[0] == ':' {
      ColonPrefix(n, tail);
      assert t[..|n|] == n;
    }
  }

  /** The first colon of `a + b` is the first colon of `b` when `a` has none
      and `b` starts with one. */
  lemma {:induction false} ColonPrefix(a: string, b: string)
    requires ':' !in a && b != [] && b[0] == ':'
    ensures ColonIndex(a + b) == |a|
  {
    if a == [] {
      assert a + b == b;
    } else {
      assert (a + b)[1..] == a[1..] + b;
      ColonPrefix(a[1..], b);
    }
  }

  lemma ColonAbsent(a: string)
    requires ':' !in a
    ensures ColonIndex(a) == |a|
  {
  }
}

=== FILE: loader.dfy ===
/** The declarative loader: `loadHandler` and `loadHandlers`
    (src/Manager.php:22-62). */
module Loader {
  import opened Outcomes
  import opened Values
  import opened Queues
  import opened EventTypes
  import opened Registry

  /** `loadHandler` (src/Manager.php:35-62). The event type is checked first;
      then a valid handler is attached, a class name is instantiated and its
      instance attached, a `'class'` array is unwrapped (its `'priority'`
      entry, when set, replacing `priority`), and any other array has each
      of its values loaded at `DefaultPriority`. The loader is not
      transactional: a failure leaves earlier attachments in place. */
  function LoadHandler(host: Host, m: Manager, eventType: string, h: Handler, priority: int): (r: Done)
    ensures !IsEventType(eventType) ==> r == Done(m, Some(InvalidEventType))
    ensures IsEventType(eventType) ==> r.error.None? || r.error == Some(InvalidHandler)
    decreases h, 1
  {
    if !IsEventType(eventType) then Done(m, Some(InvalidEventType))
    else if host.isValidHandler(h) then Attach(host, m, eventType, h, priority)
    else if h.Str? && host.instantiate(h.s).Some? then
      var instance := host.instantiate(h.s).value;
      if host.isValidHandler(instance) then Attach(host, m, eventType, instance, priority)
      else Done(m, Some(InvalidHandler))
    else if h.Keyed? then LoadHandler(host, m, eventType, h.cls, h.priority.GetOr(priority))
    else if h.List? then LoadItems(host, m, eventType, h, |h.items|)
    else Done(m, Some(InvalidHandler))
  }

  /** The `foreach` of src/Manager.php:55-57 over the last `n` values of the
      list `list`, each loaded at `DefaultPriority`; it stops at the first
      exception. */
  function LoadItems(host: Host, m: Manager, eventType: string, list: Handler, n: nat): (r: Done)
    requires list.List? && n <= |list.items|
    ensures !IsEventType(eventType) && n > 0 ==> r == Done(m, Some(InvalidEventType))
    ensures IsEventType(eventType) ==> r.error.None? || r.error == Some(InvalidHandler)
    decreases list, 0, n
  {
    if n == 0 then Done(m, None)
    else
      var item := list.items[|list.items| - n];
      var d := LoadHandler(host, m, eventType, item, DefaultPriority);
      if d.error.Some? then d else LoadItems(host, d.m, eventType, list, n - 1)
  }

  /** What a declaration asks for, independently of the registry: the
      entries to attach, in order, and the exception that ends the load. */
  datatype Plan = Plan(entries: seq<Entry>, failure: Option<Error>)

  /** The attachments a declaration denotes, read off the declaration alone. */
  function Declared(host: Host, h: Handler, priority: int): (p: Plan)
    ensures AllValid(host, p.entries)
    ensures p.failure.None? || p.failure == Some(InvalidHandler)
    decreases h, 1
  {
    if host.isValidHandler(h) then Plan([Entry(h, priority)], None)
    else if h.Str? && host.instantiate(h.s).Some? then
      var instance := host.instantiate(h.s).value;
      if host.isValidHandler(instance) then Plan([Entry(instance, priority)], None)
      else Plan([], Some(InvalidHandler))
    else if h.Keyed? then Declared(host, h.cls, h.priority.GetOr(priority))
    else if h.List? then DeclaredItems(host, h, |h.items|)
    else Plan([], Some(InvalidHandler))
  }

  /** A value that is not an array denotes one entry at the priority
      passed, or fails with none. */
  lemma DeclaredSingle(host: Host, h: Handler, priority: int)
    requires !h.Keyed? && !h.List?
    ensures var p := Declared(host, h, priority);
      && |p.entries| <= 1 && (p.failure.None? <==> |p.entries| == 1)
      && forall i :: 0 <= i < |p.entries| ==> p.entries[i].priority == priority
  {
  }

  /** The attachments of the last `n` values of a list, each at
      `DefaultPriority`, up to and including the first failing one. */
  function DeclaredItems(host: Host, list: Handler, n: nat): (p: Plan)
    requires list.List? && n <= |list.items|
    ensures AllValid(host, p.entries)
    ensures p.failure.None? || p.failure == Some(InvalidHandler)
    decreases list, 0, n
  {
    if n == 0 then Plan([], None)
    else
      var first := Declared(host, list.items[|list.items| - n], DefaultPriority);
      if first.failure.Some? then first
      else
        var rest := DeclaredItems(host, list, n - 1);
        AllValidAppend(host, first.entries, rest.entries);
        Plan(first.entries + rest.entries, rest.failure)
  }

  /** Every entry's handler passes `isValidHandler`. */
  predicate AllValid(host: Host, es: seq<Entry>)
    decreases |es|
  {
    es == [] || (host.isValidHandler(es[0].handler) && AllValid(host, es[1..]))
  }

  lemma {:induction false} AllValidAppend(host: Host, es1: seq<Entry>, es2: seq<Entry>)
    requires AllValid(host, es1) && AllValid(host, es2)
    ensures AllValid(host, es1 + es2)
    decreases |es1|
  {
    if es1 == [] {
      assert es1 + es2 == es2;
    } else {
      AllValidAppend(host, es1[1..], es2);
      assert (es1 + es2)[1..] == es1[1..] + es2;
    }
  }

  /** The registry after attaching every entry in order. (The entries a
      declaration denotes are all valid, so none of these calls throws.) */
  function AttachAll(host: Host, m: Manager, eventType: string, es: seq<Entry>): Manager
    decreases |es|
  {
    if es == [] then m
    else AttachAll(host, Attach(host, m, eventType, es[0].handler, es[0].priority).m, eventType, es[1..])
  }

  lemma {:induction false} AttachAllAppend(host: Host, m: Manager, eventType: string, es1: seq<Entry>, es2: seq<Entry>)
    ensures AttachAll(host, m, eventType, es1 + es2) ==
      AttachAll(host, AttachAll(host, m, eventType, es1), eventType, es2)
    decreases |es1|
  {
    if es1 != [] {
      var m1 := Attach(host, m, eventType, es1[0].handler, es1[0].priority).m;
      assert (es1 + es2)[1..] == es1[1..] + es2;
      AttachAllAppend(host, m1, eventType, es1[1..], es2);
    } else {
      assert es1 + es2 == es2;
    }
  }

  /** The entries as `attach` stores them: each at its effective priority. */
  function Stored(enablePriorities: bool, es: seq<Entry>): (r: seq<Entry>)
    ensures |r| == |es|
    decreases |es|
  {
    if es == [] then []
    else [Entry(es[0].handler, Effective(enablePriorities, es[0].priority))] + Stored(enablePriorities, es[1..])
  }

  /** Attaching valid entries touches only the queue of `eventType` and
      keeps the registry well-formed. */
  lemma {:induction false} AttachAllFrame(host: Host, m: Manager, eventType: string, es: seq<Entry>)
    requires AllValid(host, es)
    ensures var m' := AttachAll(host, m, eventType, es);
      SameElsewhere(m, m', eventType) && (WellFormed(m) ==> WellFormed(m'))
    decreases |es|
  {
    if es != [] {
      var m1 := Attach(host, m, eventType, es[0].handler, es[0].priority).m;
      AttachFrame(host, m, eventType, es[0].handler, es[0].priority);
      AttachAllFrame(host, m1, eventType, es[1..]);
    }
  }

  /** Attaching valid entries adds exactly those entries to the queue of
      `eventType`, each at its effective priority. */
  lemma {:induction false} AttachAllAdds(host: Host, m: Manager, eventType: string, es: seq<Entry>)
    requires AllValid(host, es)
    ensures multiset(QueueAt(AttachAll(host, m, eventType, es), eventType)) ==
      multiset(QueueAt(m, eventType)) + multiset(Stored(m.enablePriorities, es))
    decreases |es|
  {
    if es != [] {
      var e := Entry(es[0].handler, Effective(m.enablePriorities, es[0].priority));
      var m1 := Attach(host, m, eventType, es[0].handler, es[0].priority).m;
      assert multiset(QueueAt(m1, eventType)) == multiset(QueueAt(m, eventType)) + multiset{e};
      AttachAllAdds(host, m1, eventType, es[1..]);
      assert Stored(m.enablePriorities, es) == [e] + Stored(m.enablePriorities, es[1..]);
    }
  }

  /** For a well-formed event type, loading a declaration is exactly
      attaching, in order, the entries it denotes and then raising the
      failure it ends with, if any. In particular a failure does not undo
      the attachments made before it. */
  lemma {:induction false} LoadIsAttachAll(host: Host, m: Manager, eventType: string, h: Handler, priority: int)
    requires IsEventType(eventType)
    ensures LoadHandler(host, m, eventType, h, priority) ==
      Done(AttachAll(host, m, eventType, Declared(host, h, priority).entries), Declared(host, h, priority).failure)
    decreases h, 1
  {
    if host.isValidHandler(h) {
    } else if h.Str? && host.instantiate(h.s).Some? {
    } else if h.Keyed? {
      LoadIsAttachAll(host, m, eventType, h.cls, h.priority.GetOr(priority));
    } else if h.List? {
      LoadItemsIsAttachAll(host, m, eventType, h, |h.items|);
    }
  }

  /** Loading touches only the queue of its event type; that queue gains
      exactly the entries the declaration denotes, at their effective
      priorities, even when the load then fails; and a well-formed registry
      stays well-formed. */
  lemma LoadHandlerFrame(host: Host, m: Manager, eventType: string, h: Handler, priority: int)
    ensures var r := LoadHandler(host, m, eventType, h, priority);
      && SameElsewhere(m, r.m, eventType)
      && multiset(QueueAt(r.m, eventType)) == multiset(QueueAt(m, eventType)) +
           (if IsEventType(eventType) then multiset(Stored(m.enablePriorities, Declared(host, h, priority).entries)) else multiset{})
      && (WellFormed(m) ==> WellFormed(r.m))
  {
    if IsEventType(eventType) {
      LoadIsAttachAll(host, m, eventType, h, priority);
      AttachAllFrame(host, m, eventType, Declared(host, h, priority).entries);
      AttachAllAdds(host, m, eventType, Declared(host, h, priority).entries);
    }
  }

  /** Attaching never stores an empty queue. */
  lemma {:induction false} AttachAllKeepsNoEmpty(host: Host, m: Manager, eventType: string, es: seq<Entry>)
    requires NoEmptyQueue(m)
    ensures NoEmptyQueue(AttachAll(host, m, eventType, es))
    decreases |es|
  {
    if es != [] {
      AttachKeepsNoEmpty(host, m, eventType, es[0].handler, es[0].priority);
      AttachAllKeepsNoEmpty(host, Attach(host, m, eventType, es[0].handler, es[0].priority).m, eventType, es[1..]);
    }
  }

  /** Loading never stores an empty queue, even when it fails. */
  lemma LoadKeepsNoEmpty(host: Host, m: Manager, eventType: string, h: Handler, priority: int)
    requires NoEmptyQueue(m)
    ensures NoEmptyQueue(LoadHandler(host, m, eventType, h, priority).m)
  {
    if IsEventType(eventType) {
      LoadIsAttachAll(host, m, eventType, h, priority);
      AttachAllKeepsNoEmpty(host, m, eventType, Declared(host, h, priority).entries);
    }
  }

  lemma {:induction false} LoadItemsIsAttachAll(host: Host, m: Manager, eventType: string, list: Handler, n: nat)
    requires IsEventType(eventType) && list.List? && n <= |list.items|
    ensures LoadItems(host, m, eventType, list, n) ==
      Done(AttachAll(host, m, eventType, DeclaredItems(host, list, n).entries), DeclaredItems(host, list, n).failure)
    decreases list, 0, n, 1
  {
    if n > 0 {
      var first := Declared(host, list.items[|list.items| - n], DefaultPriority);
      if first.failure.Some? {
        ItemsDeclaredStep(host, list, n);
        ItemsLoadStep(host, m, eventType, list, n);
      } else {
        LoadItemsStep(host, m, eventType, list, n);
      }
    }
  }

  /** The inductive step of `LoadItemsIsAttachAll` when the current value
      loads without failure: its attachments, then those of the rest. */
  lemma {:induction false} LoadItemsStep(host: Host, m: Manager, eventType: string, list: Handler, n: nat)
    requires IsEventType(eventType) && list.List? && 0 < n <= |list.items|
    requires Declared(host, list.items[|list.items| - n], DefaultPriority).failure.None?
    ensures LoadItems(host, m, eventType, list, n) ==
      Done(AttachAll(host, m, eventType, DeclaredItems(host, list, n).entries), DeclaredItems(host, list, n).failure)
    decreases list, 0, n, 0
  {
    var first := Declared(host, list.items[|list.items| - n], DefaultPriority);
    var rest := DeclaredItems(host, list, n - 1);
    var a1 := AttachAll(host, m, eventType, first.entries);
    ItemsDeclaredStepOk(host, list, n);
    ItemsLoadStepOk(host, m, eventType, list, n);
    LoadItemsIsAttachAll(host, a1, eventType, list, n - 1);
    AttachAllAppend(host, m, eventType, first.entries, rest.entries);
  }

  /** `ItemsDeclaredStep` when the current value is declared without failure. */
  lemma ItemsDeclaredStepOk(host: Host, list: Handler, n: nat)
    requires list.List? && 0 < n <= |list.items|
    requires Declared(host, list.items[|list.items| - n], DefaultPriority).failure.None?
    ensures DeclaredItems(host, list, n).entries ==
      Declared(host, list.items[|list.items| - n], DefaultPriority).entries + DeclaredItems(host, list, n - 1).entries
    ensures DeclaredItems(host, list, n).failure == DeclaredItems(host, list, n - 1).failure
  {
    ItemsDeclaredStep(host, list, n);
  }

  /** `ItemsLoadStep` when the current value loads without failure. */
  lemma ItemsLoadStepOk(host: Host, m: Manager, eventType: string, list: Handler, n: nat)
    requires IsEventType(eventType) && list.List? && 0 < n <= |list.items|
    requires Declared(host, list.items[|list.items| - n], DefaultPriority).failure.None?
    ensures LoadItems(host, m, eventType, list, n) ==
      LoadItems(host, AttachAll(host, m, eventType, Declared(host, list.items[|list.items| - n], DefaultPriority).entries), eventType, list, n - 1)
    decreases list, 0, n - 1, 1
  {
    ItemsLoadStep(host, m, eventType, list, n);
  }

  /** One step of the declared list: the current value's entries, then,
      unless it failed, those of the remaining values. */
  lemma ItemsDeclaredStep(host: Host, list: Handler, n: nat)
    requires list.List? && 0 < n <= |list.items|
    ensures var first := Declared(host, list.items[|list.items| - n], DefaultPriority);
      var rest := DeclaredItems(host, list, n - 1);
      DeclaredItems(host, list, n) == if first.failure.Some? then first else Plan(first.entries + rest.entries, rest.failure)
  {
  }

  /** One step of the loading loop: the current value's attachments, then,
      unless it failed, the loop over the remaining values. */
  lemma ItemsLoadStep(host: Host, m: Manager, eventType: string, list: Handler, n: nat)
    requires IsEventType(eventType) && list.List? && 0 < n <= |list.items|
    ensures var first := Declared(host, list.items[|list.items| - n], DefaultPriority);
      var a1 := AttachAll(host, m, eventType, first.entries);
      LoadItems(host, m, eventType, list, n) ==
        if first.failure.Some? then Done(a1, first.failure) else LoadItems(host, a1, eventType, list, n - 1)
    decreases list, 0, n - 1, 0
  {
    LoadIsAttachAll(host, m, eventType, list.items[|list.items| - n], DefaultPriority);
  }

  /** A `'class'` array with a `'priority'` entry loads its `'class'` value
      at that priority, whatever priority the call passed: a handler is
      attached at it, a class name is instantiated and its instance attached
      at it, and an unusable value fails as it would on its own. */
  lemma LoadKeyedWithPriority(host: Host, m: Manager, eventType: string, h: Handler, given: int, priority: int)
    requires IsEventType(eventType) && !host.isValidHandler(Keyed(h, Some(given)))
    ensures LoadHandler(host, m, eventType, Keyed(h, Some(given)), priority) == LoadHandler(host, m, eventType, h, given)
  {
  }

  /** A valid handler is attached as it is, at the priority passed. */
  lemma LoadValidHandler(host: Host, m: Manager, eventType: string, h: Handler, priority: int)
    requires IsEventType(eventType) && host.isValidHandler(h)
    ensures LoadHandler(host, m, eventType, h, priority) == Done(Attach(host, m, eventType, h, priority).m, None)
    ensures Entry(h, Effective(m.enablePriorities, priority)) in QueueAt(LoadHandler(host, m, eventType, h, priority).m, eventType)
  {
    var q := QueueAt(Attach(host, m, eventType, h, priority).m, eventType);
    assert multiset(q)[Entry(h, Effective(m.enablePriorities, priority))] > 0;
  }

  /** A class name that is not itself a handler is instantiated: a valid
      instance is attached at the priority passed; an invalid one makes the
      load fail with nothing attached. */
  lemma LoadClassName(host: Host, m: Manager, eventType: string, name: string, priority: int)
    requires IsEventType(eventType) && !host.isValidHandler(Str(name)) && host.instantiate(name).Some?
    ensures var instance := host.instantiate(name).value;
      LoadHandler(host, m, eventType, Str(name), priority) ==
        if host.isValidHandler(instance) then Done(Attach(host, m, eventType, instance, priority).m, None)
        else Done(m, Some(InvalidHandler))
    ensures var instance := host.instantiate(name).value;
      host.isValidHandler(instance) ==>
        Entry(instance, Effective(m.enablePriorities, priority)) in QueueAt(LoadHandler(host, m, eventType, Str(name), priority).m, eventType)
  {
    var instance := host.instantiate(name).value;
    if host.isValidHandler(instance) {
      var q := QueueAt(Attach(host, m, eventType, instance, priority).m, eventType);
      assert multiset(q)[Entry(instance, Effective(m.enablePriorities, priority))] > 0;
    }
  }

  /** Any other invalid value (an object or closure the parent rejects, a
      string naming no class, a scalar) makes the load fail with nothing
      attached. */
  lemma LoadUnusable(host: Host, m: Manager, eventType: string, h: Handler, priority: int)
    requires IsEventType(eventType) && !host.isValidHandler(h)
    requires !h.Keyed? && !h.List? && !(h.Str? && host.instantiate(h.s).Some?)
    ensures LoadHandler(host, m, eventType, h, priority) == Done(m, Some(InvalidHandler))
  {
  }

  /** A `'class'` array without a `'priority'` entry keeps the incoming priority. */
  lemma LoadKeyedWithoutPriority(host: Host, m: Manager, eventType: string, h: Handler, priority: int)
    requires IsEventType(eventType) && !host.isValidHandler(Keyed(h, None))
    ensures LoadHandler(host, m, eventType, Keyed(h, None), priority) == LoadHandler(host, m, eventType, h, priority)
  {
  }

  /** The values of a list are loaded at `DefaultPriority`: the priority
      passed with the list itself makes no difference. */
  lemma LoadListIgnoresPriority(host: Host, m: Manager, eventType: string, items: seq<Handler>, p1: int, p2: int)
    requires !host.isValidHandler(List(items))
    ensures LoadHandler(host, m, eventType, List(items), p1) == LoadHandler(host, m, eventType, List(items), p2)
  {
  }

  /** A list of valid handlers denotes one entry per value, in list order,
      each at `DefaultPriority`, and no failure. */
  lemma ListOfHandlers(host: Host, items: seq<Handler>, priority: int)
    requires !host.isValidHandler(List(items))
    requires forall i :: 0 <= i < |items| ==> host.isValidHandler(items[i])
    ensures Declared(host, List(items), priority) ==
      Plan(seq(|items|, i requires 0 <= i < |items| => Entry(items[i], DefaultPriority)), None)
  {
    ListSuffix(host, List(items), |items|);
    assert items[|items| - |items|..] == items;
  }

  lemma {:induction false} ListSuffix(host: Host, list: Handler, n: nat)
    requires list.List? && n <= |list.items|
    requires forall i :: 0 <= i < |list.items| ==> host.isValidHandler(list.items[i])
    ensures var tail := list.items[|list.items| - n..];
      DeclaredItems(host, list, n) == Plan(seq(n, i requires 0 <= i < n => Entry(tail[i], DefaultPriority)), None)
    decreases n
  {
    if n > 0 {
      ListSuffix(host, list, n - 1);
      var k := |list.items| - n;
      var tail := list.items[k..];
      var rest := seq(n - 1, i requires 0 <= i < n - 1 => Entry(list.items[k + 1..][i], DefaultPriority));
      assert Declared(host, list.items[k], DefaultPriority) == Plan([Entry(list.items[k], DefaultPriority)], None);
      assert seq(n, i requires 0 <= i < n => Entry(tail[i], DefaultPriority)) == [Entry(list.items[k], DefaultPriority)] + rest;
    }
  }

  /** Not transactional: once the first value of a list is attached, it
      stays attached even if a later value makes the load fail. */
  lemma LoadKeepsEarlierSiblings(host: Host, m: Manager, eventType: string, items: seq<Handler>, priority: int)
    requires IsEventType(eventType) && items != []
    requires !host.isValidHandler(List(items)) && host.isValidHandler(items[0])
    ensures Entry(items[0], DefaultPriority) in multiset(QueueAt(LoadHandler(host, m, eventType, List(items), priority).m, eventType))
  {
    var e := Entry(items[0], DefaultPriority);
    var entries := Declared(host, List(items), priority).entries;
    assert entries != [] && entries[0] == e by {
      assert Declared(host, List(items), priority) == DeclaredItems(host, List(items), |items|);
      assert Declared(host, items[0], DefaultPriority) == Plan([e], None);
    }
    var stored := Stored(m.enablePriorities, entries);
    assert stored[0] == e;
    assert e in multiset(stored);
    LoadHandlerFrame(host, m, eventType, List(items), priority);
  }

  /** `loadHandlers` (src/Manager.php:22-27): every (event type,
      declaration) pair in array order, at `DefaultPriority`, stopping at
      the first exception. */
  function LoadHandlers(host: Host, m: Manager, handlers: seq<(string, Handler)>): (r: Done)
    ensures r.error.None? ==> forall i :: 0 <= i < |handlers| ==> IsEventType(handlers[i].0)
    ensures r.error.Some? ==> r.error == Some(InvalidHandler) || r.error == Some(InvalidEventType)
    decreases |handlers|
  {
    if handlers == [] then Done(m, None)
    else
      var d := LoadHandler(host, m, handlers[0].0, handlers[0].1, DefaultPriority);
      if d.error.Some? then d else LoadHandlers(host, d.m, handlers[1..])
  }

  /** The event types a declaration list names. */
  function Named(handlers: seq<(string, Handler)>): set<string>
    decreases |handlers|
  {
    if handlers == [] then {} else {handlers[0].0} + Named(handlers[1..])
  }

  /** `m2` differs from `m1` at most in the queues of `keys`. */
  ghost predicate SameOutside(m1: Manager, m2: Manager, keys: set<string>) {
    && m2.responses == m1.responses
    && m2.collect == m1.collect
    && m2.enablePriorities == m1.enablePriorities
    && forall k :: k !in keys ==> (HasQueue(m2, k) <==> HasQueue(m1, k)) && QueueAt(m2, k) == QueueAt(m1, k)
  }

  /** `loadHandlers` touches only the queues of the event types it names,
      even when it fails part-way, and keeps the registry well-formed. */
  lemma {:induction false} LoadHandlersFrame(host: Host, m: Manager, handlers: seq<(string, Handler)>)
    ensures var r := LoadHandlers(host, m, handlers);
      SameOutside(m, r.m, Named(handlers)) && (WellFormed(m) ==> WellFormed(r.m))
    decreases |handlers|
  {
    if handlers != [] {
      var d := LoadHandler(host, m, handlers[0].0, handlers[0].1, DefaultPriority);
      LoadHandlerFrame(host, m, handlers[0].0, handlers[0].1, DefaultPriority);
      if d.error.None? {
        LoadHandlersFrame(host, d.m, handlers[1..]);
      }
    }
  }

  /** `loadHandlers` on `hs + [last]` is `loadHandlers` on `hs` followed, if
      that succeeded, by loading `last`: the pairs are processed in order. */
  lemma {:induction false} LoadHandlersInOrder(host: Host, m: Manager, hs: seq<(string, Handler)>, last: (string, Handler))
    ensures var d := LoadHandlers(host, m, hs);
      LoadHandlers(host, m, hs + [last]) ==
        if d.error.Some? then d else LoadHandler(host, d.m, last.0, last.1, DefaultPriority)
    decreases |hs|
  {
    if hs == [] {
      assert [] + [last] == [last];
    } else {
      var d := LoadHandler(host, m, hs[0].0, hs[0].1, DefaultPriority);
      assert (hs + [last])[1..] == hs[1..] + [last];
      if d.error.None? {
        LoadHandlersInOrder(host, d.m, hs[1..], last);
      }
    }
  }

  /** A colon-less key such as a bare group can be registered through
      `attach`, which does not check the event type, but never through the
      loader, which rejects it before attaching anything. */
  lemma GroupKeysOnlyThroughAttach(host: Host, m: Manager, key: string, h: Handler, priority: int)
    requires !IsEventType(key) && host.isValidHandler(h)
    ensures HasQueue(Attach(host, m, key, h, priority).m, key)
    ensures LoadHandler(host, m, key, h, priority) == Done(m, Some(InvalidEventType))
  {
  }
}

=== FILE: outcomes.dfy ===
/** Failure-carrying datatypes for the event manager: the PHP exceptions and
    errors the manager can raise, and a Result wrapper. */
module Outcomes {

  datatype Option<+T> = None | Some(value: T) {

    /** The value, or `default` when there is none (PHP's `isset(...) ? ... : ...`). */
    function GetOr(default: T): T {
      if Some? then value else default
    }
  }

  /** Message of the exception thrown for an unusable handler (src/Manager.php:12). */
  const HandlerInvalidMessage: string := "Event handler must be an Object or Callable"

  /** Message of the exception thrown for a malformed event type (src/Manager.php:13). */
  const EventTypeInvalidMessage: string := "Event type is not valid"

  /** What a call into the manager can throw. */
  datatype Error =
      /** `\RuntimeException` with the given message. */
    | RuntimeException(message: string)
      /** PHP `Error`: a method called on `null`. */
    | NullMethodCall
      /** PHP `TypeError`: a value that cannot be coerced to a declared return type. */
    | TypeError

  const InvalidHandler: Error := RuntimeException(HandlerInvalidMessage)
  const InvalidEventType: Error := RuntimeException(EventTypeInvalidMessage)

  /** `\RuntimeException` that `SplPriorityQueue::top()` throws on an empty queue. */
  const EmptyHeap: Error := RuntimeException("Can't peek at an empty heap")

  datatype Result<+T> = Ok(value: T) | Err(error: Error)
}

=== FILE: queues.dfy ===
/** The `SplPriorityQueue` of one event key, as the sequence of its entries
    in extraction order (highest priority first).

    Equal-priority extraction order is not fixed by the manager's code. This
    model makes one explicit choice, stable first-in-first-out: `Insert` puts a
    new entry after every entry whose priority is at least its own. Among the
    lemmas here, `InsertStable`, `InsertAtRank`, `InsertLowest`,
    `RebuildFromAppends` and `RebuildIsWithout` depend on that choice, and
    so does every lemma that uses them; the lemmas about firing use nothing
    but `Sorted`. */
module Queues {
  import opened Values

  /** One queued handler with the priority it was inserted at. */
  datatype Entry = Entry(handler: Handler, priority: int)

  type Queue = seq<Entry>

  /** Extraction order: priorities never increase from front to back. */
  predicate Sorted(q: Queue) {
    forall i, j :: 0 <= i < j < |q| ==> q[i].priority >= q[j].priority
  }

  /** `$queue->insert($handler, $priority)`. */
  function Insert(q: Queue, e: Entry): (r: Queue)
    ensures |r| == |q| + 1
    ensures multiset(r) == multiset(q) + multiset{e}
  {
    if q == [] || q[0].priority < e.priority then [e] + q
    else
      assert q == [q[0]] + q[1..];
      [q[0]] + Insert(q[1..], e)
  }

  /** Every priority in `q` is at most `p`. */
  predicate AtMost(q: Queue, p: int) {
    forall i :: 0 <= i < |q| ==> q[i].priority <= p
  }

  /** Every priority in `q` is at least `p`. */
  predicate AtLeast(q: Queue, p: int) {
    forall i :: 0 <= i < |q| ==> q[i].priority >= p
  }

  /** A queue in extraction order stays so under a new head that is not
      below any of its entries. */
  lemma ConsSorted(x: Entry, t: Queue)
    requires Sorted(t) && AtMost(t, x.priority)
    ensures Sorted([x] + t)
  {
    var r := [x] + t;
    forall i, j | 0 <= i < j < |r| ensures r[i].priority >= r[j].priority {
      assert r[j] == t[j - 1];
      if i > 0 {
        assert r[i] == t[i - 1];
      }
    }
  }

  /** The tail of a queue in extraction order is in extraction order and
      bounded by the head. */
  lemma SortedTail(q: Queue)
    requires q != [] && Sorted(q)
    ensures Sorted(q[1..]) && AtMost(q[1..], q[0].priority)
  {
    forall i, j | 0 <= i < j < |q[1..]| ensures q[1..][i].priority >= q[1..][j].priority {
      assert q[1..][i] == q[i + 1] && q[1..][j] == q[j + 1];
    }
    forall i | 0 <= i < |q[1..]| ensures q[1..][i].priority <= q[0].priority {
      assert q[1..][i] == q[i + 1];
    }
  }

  /** Inserting an entry under a bound keeps the queue under it. */
  lemma {:induction false} InsertAtMost(q: Queue, e: Entry, p: int)
    requires AtMost(q, p) && e.priority <= p
    ensures AtMost(Insert(q, e), p)
  {
    if q != [] && q[0].priority >= e.priority {
      assert AtMost(q[1..], p) by {
        forall i | 0 <= i < |q[1..]| ensures q[1..][i].priority <= p {
          assert q[1..][i] == q[i + 1];
        }
      }
      InsertAtMost(q[1..], e, p);
      var r := [q[0]] + Insert(q[1..], e);
      forall i | 0 <= i < |r| ensures r[i].priority <= p {
        if i > 0 {
          assert r[i] == Insert(q[1..], e)[i - 1];
        }
      }
    }
  }

  /** Insertion keeps the queue in extraction order. */
  lemma {:induction false} InsertSorted(q: Queue, e: Entry)
    ensures Sorted(q) ==> Sorted(Insert(q, e))
  {
    if Sorted(q) {
      if q == [] || q[0].priority < e.priority {
        if q != [] {
          SortedTail(q);
          assert AtMost(q, e.priority) by {
            forall i | 0 <= i < |q| ensures q[i].priority <= e.priority {
              if i > 0 {
                assert q[i] == q[1..][i - 1];
              }
            }
          }
        }
        ConsSorted(e, q);
      } else {
        SortedTail(q);
        InsertSorted(q[1..], e);
        InsertAtMost(q[1..], e, q[0].priority);
        ConsSorted(q[0], Insert(q[1..], e));
      }
    }
  }

  /** Number of leading entries whose priority is at least `p`. */
  function Rank(q: Queue, p: int): (k: nat)
    ensures k <= |q|
    ensures forall i :: 0 <= i < k ==> q[i].priority >= p
    ensures k < |q| ==> q[k].priority < p
  {
    if q == [] || q[0].priority < p then 0 else 1 + Rank(q[1..], p)
  }

  /** The tie-break chosen for this model: a new entry goes after every entry
      of higher or equal priority and before every entry of lower priority,
      and the other entries keep their order. */
  lemma InsertStable(q: Queue, e: Entry)
    requires Sorted(q)
    ensures Insert(q, e) == q[..Rank(q, e.priority)] + [e] + q[Rank(q, e.priority)..]
    ensures forall i :: Rank(q, e.priority) <= i < |q| ==> q[i].priority < e.priority
  {
    InsertAtRank(q, e);
    var k := Rank(q, e.priority);
    forall i | k <= i < |q| ensures q[i].priority < e.priority {
      assert q[i].priority <= q[k].priority;
    }
  }

  /** `Insert` places the entry at its rank, whatever the order of `q`. */
  lemma {:induction false} InsertAtRank(q: Queue, e: Entry)
    ensures Insert(q, e) == q[..Rank(q, e.priority)] + [e] + q[Rank(q, e.priority)..]
  {
    if q != [] && q[0].priority >= e.priority {
      InsertAtRank(q[1..], e);
      var k := Rank(q[1..], e.priority);
      assert q[..k + 1] == [q[0]] + q[1..][..k];
      assert q[k + 1..] == q[1..][k..];
    }
  }

  /** An entry whose priority is at most every queued priority goes last. */
  lemma {:induction false} InsertLowest(q: Queue, e: Entry)
    requires AtLeast(q, e.priority)
    ensures Insert(q, e) == q + [e]
  {
    if q != [] {
      InsertLowest(q[1..], e);
      assert q == [q[0]] + q[1..];
    }
  }

  /** The entries of `q` whose handler is not identical (`!==`) to `h`, in
      their order and at their priorities. */
  function Without(q: Queue, h: Handler): (r: Queue)
    ensures |r| <= |q|
  {
    if q == [] then []
    else if q[0].handler == h then Without(q[1..], h)
    else [q[0]] + Without(q[1..], h)
  }

  /** `Without` removes every entry of `h`, duplicates included, and keeps
      every other entry exactly as often as it was queued. */
  lemma {:induction false} WithoutCount(q: Queue, h: Handler)
    ensures forall x :: multiset(Without(q, h))[x] == if x.handler == h then 0 else multiset(q)[x]
  {
    if q != [] {
      WithoutCount(q[1..], h);
      assert q == [q[0]] + q[1..];
    }
  }

  /** Filtering keeps a bound on the priorities. */
  lemma {:induction false} WithoutAtMost(q: Queue, h: Handler, p: int)
    requires AtMost(q, p)
    ensures AtMost(Without(q, h), p)
  {
    if q != [] {
      assert AtMost(q[1..], p) by {
        forall i | 0 <= i < |q[1..]| ensures q[1..][i].priority <= p {
          assert q[1..][i] == q[i + 1];
        }
      }
      WithoutAtMost(q[1..], h, p);
      if q[0].handler != h {
        var r := [q[0]] + Without(q[1..], h);
        forall i | 0 <= i < |r| ensures r[i].priority <= p {
          if i > 0 {
            assert r[i] == Without(q[1..], h)[i - 1];
          }
        }
      }
    }
  }

  /** Filtering keeps the queue in extraction order. */
  lemma {:induction false} WithoutSorted(q: Queue, h: Handler)
    requires Sorted(q)
    ensures Sorted(Without(q, h))
  {
    if q != [] {
      SortedTail(q);
      WithoutSorted(q[1..], h);
      if q[0].handler != h {
        WithoutAtMost(q[1..], h, q[0].priority);
        ConsSorted(q[0], Without(q[1..], h));
      }
    }
  }

  /** Removing a handler that is not queued changes nothing. */
  lemma {:induction false} WithoutAbsent(q: Queue, h: Handler)
    requires forall i :: 0 <= i < |q| ==> q[i].handler != h
    ensures Without(q, h) == q
  {
    if q != [] {
      WithoutAbsent(q[1..], h);
      assert q == [q[0]] + q[1..];
    }
  }

  /** Removing `h` also removes an entry of `h` inserted just before. */
  lemma {:induction false} WithoutInsert(q: Queue, e: Entry)
    ensures Without(Insert(q, e), e.handler) == Without(q, e.handler)
  {
    if q == [] || q[0].priority < e.priority {
      assert ([e] + q)[1..] == q;
    } else {
      WithoutInsert(q[1..], e);
      assert ([q[0]] + Insert(q[1..], e))[1..] == Insert(q[1..], e);
    }
  }

  /** The rebuild loop of `detach` (src/Manager.php:109-119): walk `rest` in
      extraction order and insert, at its own priority, every entry whose
      handler is not `h` into the new queue `acc`. */
  function RebuildFrom(acc: Queue, rest: Queue, h: Handler): Queue
    decreases |rest|
  {
    if rest == [] then acc
    else if rest[0].handler != h then RebuildFrom(Insert(acc, rest[0]), rest[1..], h)
    else RebuildFrom(acc, rest[1..], h)
  }

  /** The queue `detach` builds for `q`. */
  function Rebuild(q: Queue, h: Handler): Queue
  {
    RebuildFrom([], q, h)
  }

  /** Whatever the tie-break, the rebuilt queue holds exactly the entries
      whose handler is not `h`, each as often as before, at its own priority. */
  lemma RebuildCount(q: Queue, h: Handler)
    ensures forall x :: multiset(Rebuild(q, h))[x] == if x.handler == h then 0 else multiset(q)[x]
  {
    RebuildFromCount([], q, h);
    WithoutCount(q, h);
  }

  lemma {:induction false} RebuildFromCount(acc: Queue, rest: Queue, h: Handler)
    ensures multiset(RebuildFrom(acc, rest, h)) == multiset(acc) + multiset(Without(rest, h))
    decreases |rest|
  {
    if rest != [] {
      if rest[0].handler != h {
        RebuildFromCount(Insert(acc, rest[0]), rest[1..], h);
        assert Without(rest, h) == [rest[0]] + Without(rest[1..], h);
      } else {
        RebuildFromCount(acc, rest[1..], h);
      }
    }
  }

  /** Under the stable tie-break, rebuilding a queue in extraction order gives
      back exactly the filtered queue: the surviving entries keep their
      priorities and their relative order. */
  lemma RebuildIsWithout(q: Queue, h: Handler)
    requires Sorted(q)
    ensures Rebuild(q, h) == Without(q, h)
  {
    RebuildFromAppends([], q, h);
  }

  lemma {:induction false} RebuildFromAppends(acc: Queue, rest: Queue, h: Handler)
    requires Sorted(rest)
    requires rest != [] ==> AtLeast(acc, rest[0].priority)
    ensures RebuildFrom(acc, rest, h) == acc + Without(rest, h)
    decreases |rest|
  {
    if rest == [] {
      assert acc + [] == acc;
    } else {
      var tail := rest[1..];
      SortedTail(rest);
      if rest[0].handler != h {
        InsertLowest(acc, rest[0]);
        var acc' := acc + [rest[0]];
        if tail != [] {
          assert tail[0].priority <= rest[0].priority;
          assert AtLeast(acc', tail[0].priority) by {
            forall i | 0 <= i < |acc'| ensures acc'[i].priority >= tail[0].priority {
              if i < |acc| {
                assert acc'[i] == acc[i];
              }
            }
          }
        }
        RebuildFromAppends(acc', tail, h);
        assert acc' + Without(tail, h) == acc + ([rest[0]] + Without(tail, h));
      } else {
        if tail != [] {
          assert tail[0].priority <= rest[0].priority;
        }
        RebuildFromAppends(acc, tail, h);
      }
    }
  }
}

=== FILE: registry.dfy ===
/** The manager's state and its registry mutations: `attach` and `detach`
    (src/Manager.php:70-123). */
module Registry {
  import opened Outcomes
  import opened Values
  import opened Queues

  /** `DEFAULT_PRIORITY`, inherited from the parent Phalcon manager (which is
      not part of this model). No proof depends on its value. */
  const DefaultPriority: int := 100

  /** The event a handler receives: its name (the second `explode` segment),
      whether it may be cancelled, and whether a handler has stopped it. */
  datatype Event = Event(name: string, cancelable: bool, stopped: bool)

  /** What one handler invocation yields: the returned value, and whether
      the handler called `$event->stop()`. */
  datatype Reaction = Reaction(returned: Status, stops: bool)

  /** Behaviour the manager consults but does not define:
      - `isValidHandler`: the parent manager's `isValidHandler` check;
      - `instantiate`: `class_exists($name) ? new $name() : <no class>`;
      - `invoke`: the body of a handler (closure call or named method call).
        It is a function of the handler and the event as it stands: a body
        whose result depends on its own earlier calls is not represented. */
  datatype Host = Host(
    isValidHandler: Handler -> bool,
    instantiate: string -> Option<Handler>,
    invoke: (Handler, Event) -> Reaction)

  /** Event key -> queue of that key. */
  type Events = map<string, Queue>

  /** The manager's fields. `events` is `null` until the first `attach`;
      `collect` and `enablePriorities` are fixed configuration. */
  datatype Manager = Manager(
    events: Option<Events>,
    responses: seq<Status>,
    collect: bool,
    enablePriorities: bool)

  /** A mutating call's outcome: the state afterwards (a thrown exception
      leaves whatever was already changed) and the exception, if any. */
  datatype Done = Done(m: Manager, error: Option<Error>)

  /** Whether `$this->events[$key]` holds a queue. */
  predicate HasQueue(m: Manager, key: string) {
    m.events.Some? && key in m.events.value
  }

  /** The queue stored for `key`, empty when there is none. */
  function QueueAt(m: Manager, key: string): Queue {
    if HasQueue(m, key) then m.events.value[key] else []
  }

  /** Keys holding a queue. */
  function Keys(m: Manager): set<string> {
    if m.events.Some? then m.events.value.Keys else {}
  }

  /** Every stored queue is in extraction order. */
  predicate WellFormed(m: Manager) {
    m.events.Some? ==> forall k :: k in m.events.value ==> Sorted(m.events.value[k])
  }

  /** `key` holds a queue with no entries: `fire` and `detach` would call
      `top()` on it. */
  predicate EmptyStored(m: Manager, key: string) {
    HasQueue(m, key) && QueueAt(m, key) == []
  }

  /** No key holds an empty queue. */
  predicate NoEmptyQueue(m: Manager) {
    m.events.Some? ==> forall k :: k in m.events.value ==> m.events.value[k] != []
  }

  /** `m2` differs from `m1` at most in the queue stored for `key`. */
  ghost predicate SameElsewhere(m1: Manager, m2: Manager, key: string) {
    && m2.responses == m1.responses
    && m2.collect == m1.collect
    && m2.enablePriorities == m1.enablePriorities
    && forall k :: k != key ==> (HasQueue(m2, k) <==> HasQueue(m1, k)) && QueueAt(m2, k) == QueueAt(m1, k)
  }

  /** The priority `attach` stores: the requested one, or `DefaultPriority`
      when priorities are disabled (src/Manager.php:83-85). */
  function Effective(enablePriorities: bool, priority: int): int {
    if enablePriorities then priority else DefaultPriority
  }

  /** `attach` (src/Manager.php:70-88). The event type is not validated and
      nothing is deduplicated; with priorities disabled every entry is
      stored at `DefaultPriority`. */
  function Attach(host: Host, m: Manager, eventType: string, h: Handler, priority: int): (r: Done)
    ensures !host.isValidHandler(h) ==> r == Done(m, Some(InvalidHandler))
    ensures host.isValidHandler(h) ==> r.error == None && HasQueue(r.m, eventType)
    ensures host.isValidHandler(h) ==>
      multiset(QueueAt(r.m, eventType)) == multiset(QueueAt(m, eventType)) +
        multiset{Entry(h, Effective(m.enablePriorities, priority))}
  {
    if !host.isValidHandler(h) then Done(m, Some(InvalidHandler))
    else
      var events := m.events.GetOr(map[]);
      var queue := if eventType in events then events[eventType] else [];
      Done(m.(events := Some(events[eventType := Insert(queue, Entry(h, Effective(m.enablePriorities, priority)))])), None)
  }

  /** `attach` touches nothing but the queue of its event type, and keeps
      every queue in extraction order. */
  lemma AttachFrame(host: Host, m: Manager, eventType: string, h: Handler, priority: int)
    ensures var r := Attach(host, m, eventType, h, priority);
      SameElsewhere(m, r.m, eventType) && (WellFormed(m) ==> WellFormed(r.m))
  {
    if host.isValidHandler(h) {
      var r := Attach(host, m, eventType, h, priority);
      var events := m.events.GetOr(map[]);
      var queue := QueueAt(m, eventType);
      var e := Entry(h, Effective(m.enablePriorities, priority));
      assert r.m.events == Some(events[eventType := Insert(queue, e)]);
      assert forall k :: k != eventType ==> HasQueue(r.m, k) == HasQueue(m, k) && QueueAt(r.m, k) == QueueAt(m, k);
      if WellFormed(m) {
        InsertSorted(queue, e);
        assert Sorted(queue);
      }
    }
  }

  /** With priorities disabled the requested priority makes no difference. */
  lemma AttachIgnoresPriority(host: Host, m: Manager, eventType: string, h: Handler, p1: int, p2: int)
    requires !m.enablePriorities
    ensures Attach(host, m, eventType, h, p1) == Attach(host, m, eventType, h, p2)
  {
  }

  /** Under the stable tie-break, attaching with priorities disabled appends
      to the queue: the registry behaves first-in-first-out. */
  lemma {:induction false} AttachWithoutPrioritiesAppends(host: Host, m: Manager, eventType: string, h: Handler, priority: int)
    requires !m.enablePriorities && host.isValidHandler(h)
    requires forall i :: 0 <= i < |QueueAt(m, eventType)| ==> QueueAt(m, eventType)[i].priority == DefaultPriority
    ensures QueueAt(Attach(host, m, eventType, h, priority).m, eventType) == QueueAt(m, eventType) + [Entry(h, DefaultPriority)]
  {
    InsertLowest(QueueAt(m, eventType), Entry(h, DefaultPriority));
  }

  /** `detach` as written (src/Manager.php:95-123). The guard on line 102 is
      inverted: when a queue exists nothing is removed, and when none exists
      the body calls `setExtractFlags` on `null` (line 106), a PHP `Error`.
      See `Detach` for the evidently intended behaviour. */
  function DetachAsWritten(host: Host, m: Manager, eventType: string, h: Handler): (r: Done)
    ensures !host.isValidHandler(h) ==> r.error == Some(InvalidHandler)
    ensures host.isValidHandler(h) ==> (r.error.None? <==> HasQueue(m, eventType))
    ensures host.isValidHandler(h) && !HasQueue(m, eventType) ==> r.error == Some(NullMethodCall)
    ensures r.m == m
  {
    if !host.isValidHandler(h) then Done(m, Some(InvalidHandler))
    else if !HasQueue(m, eventType) then Done(m, Some(NullMethodCall))
    else Done(m, None)
  }

  /** As written, `detach` leaves a queued handler in place. */
  lemma DetachAsWrittenKeepsHandler(host: Host, m: Manager, eventType: string, e: Entry)
    requires host.isValidHandler(e.handler) && e in QueueAt(m, eventType)
    ensures DetachAsWritten(host, m, eventType, e.handler).error.None?
    ensures e in QueueAt(DetachAsWritten(host, m, eventType, e.handler).m, eventType)
  {
  }

  /** `detach` with the guard of line 102 corrected: a missing queue is left
      alone; an existing one is peeked at (line 107, which throws on an empty
      queue) and replaced by the rebuild of lines 109-119. */
  function Detach(host: Host, m: Manager, eventType: string, h: Handler): (r: Done)
    ensures !host.isValidHandler(h) ==> r == Done(m, Some(InvalidHandler))
    ensures host.isValidHandler(h) && !HasQueue(m, eventType) ==> r == Done(m, None)
    ensures host.isValidHandler(h) && EmptyStored(m, eventType) ==> r == Done(m, Some(EmptyHeap))
    ensures host.isValidHandler(h) ==> (r.error.None? <==> !EmptyStored(m, eventType)) && Keys(r.m) == Keys(m)
    ensures host.isValidHandler(h) ==> forall x ::
      multiset(QueueAt(r.m, eventType))[x] == if x.handler == h then 0 else multiset(QueueAt(m, eventType))[x]
    ensures SameElsewhere(m, r.m, eventType)
  {
    if !host.isValidHandler(h) then Done(m, Some(InvalidHandler))
    else if !HasQueue(m, eventType) then Done(m, None)
    else if m.events.value[eventType] == [] then Done(m, Some(EmptyHeap))
    else
      var q := m.events.value[eventType];
      RebuildCount(q, h);
      Done(m.(events := Some(m.events.value[eventType := Rebuild(q, h)])), None)
  }

  /** Detaching the only handler of a key leaves an empty queue stored
      under it, which the next `fire` of that key peeks at. */
  lemma DetachLastLeavesEmptyQueue(host: Host, m: Manager, eventType: string, h: Handler)
    requires host.isValidHandler(h) && HasQueue(m, eventType) && QueueAt(m, eventType) != []
    requires forall i :: 0 <= i < |QueueAt(m, eventType)| ==> QueueAt(m, eventType)[i].handler == h
    ensures EmptyStored(Detach(host, m, eventType, h).m, eventType)
  {
    var q' := QueueAt(Detach(host, m, eventType, h).m, eventType);
    assert multiset(q') == multiset{} by {
      forall x: Entry ensures multiset(q')[x] == 0 {
        if x.handler != h {
          assert x !in QueueAt(m, eventType);
        }
      }
    }
  }

  /** `detach` as evidently intended: the guard of line 102 corrected, and a
      key left without entries dropped, so that no empty queue is stored for
      a later `top()` to fail on. */
  function DetachPrunes(host: Host, m: Manager, eventType: string, h: Handler): (r: Done)
    ensures !host.isValidHandler(h) ==> r == Done(m, Some(InvalidHandler))
    ensures host.isValidHandler(h) ==> r.error == None
    ensures host.isValidHandler(h) ==> (HasQueue(r.m, eventType) <==> QueueAt(r.m, eventType) != [])
    ensures host.isValidHandler(h) ==> forall x ::
      multiset(QueueAt(r.m, eventType))[x] == if x.handler == h then 0 else multiset(QueueAt(m, eventType))[x]
    ensures SameElsewhere(m, r.m, eventType)
  {
    if !host.isValidHandler(h) then Done(m, Some(InvalidHandler))
    else if !HasQueue(m, eventType) then Done(m, None)
    else
      var q := m.events.value[eventType];
      RebuildCount(q, h);
      var q' := Rebuild(q, h);
      if q' == [] then Done(m.(events := Some(m.events.value - {eventType})), None)
      else Done(m.(events := Some(m.events.value[eventType := q'])), None)
  }

  /** `attach` never stores an empty queue. */
  lemma AttachKeepsNoEmpty(host: Host, m: Manager, eventType: string, h: Handler, priority: int)
    requires NoEmptyQueue(m)
    ensures NoEmptyQueue(Attach(host, m, eventType, h, priority).m)
  {
    var r := Attach(host, m, eventType, h, priority);
    if host.isValidHandler(h) {
      AttachFrame(host, m, eventType, h, priority);
      forall k | k in r.m.events.value ensures r.m.events.value[k] != [] {
        if k != eventType {
          assert QueueAt(r.m, k) == QueueAt(m, k) && HasQueue(m, k);
        } else {
          assert |QueueAt(r.m, k)| > 0 by {
            assert multiset(QueueAt(r.m, k))[Entry(h, Effective(m.enablePriorities, priority))] > 0;
          }
        }
      }
    }
  }

  /** The evidently intended `detach` never stores an empty queue either. */
  lemma DetachPrunesKeepsNoEmpty(host: Host, m: Manager, eventType: string, h: Handler)
    requires NoEmptyQueue(m)
    ensures NoEmptyQueue(DetachPrunes(host, m, eventType, h).m)
  {
    var r := DetachPrunes(host, m, eventType, h);
    if host.isValidHandler(h) && r.m.events.Some? {
      forall k | k in r.m.events.value ensures r.m.events.value[k] != [] {
        assert HasQueue(r.m, k);
        if k != eventType {
          assert QueueAt(r.m, k) == QueueAt(m, k) && HasQueue(m, k);
        }
      }
    }
  }

  /** On a well-formed registry the corrected `detach` keeps the surviving
      entries in their extraction order and keeps the registry well formed. */
  lemma DetachKeepsOrder(host: Host, m: Manager, eventType: string, h: Handler)
    requires WellFormed(m) && host.isValidHandler(h)
    ensures QueueAt(Detach(host, m, eventType, h).m, eventType) == Without(QueueAt(m, eventType), h)
    ensures WellFormed(Detach(host, m, eventType, h).m)
  {
    var q := QueueAt(m, eventType);
    RebuildIsWithout(q, h);
    WithoutSorted(q, h);
  }

  /** Round trip: attaching a handler that is not yet queued for a key and
      detaching it again restores that key's queue. */
  lemma AttachDetach(host: Host, m: Manager, eventType: string, h: Handler, priority: int)
    requires WellFormed(m) && host.isValidHandler(h)
    requires forall i :: 0 <= i < |QueueAt(m, eventType)| ==> QueueAt(m, eventType)[i].handler != h
    ensures QueueAt(Detach(host, Attach(host, m, eventType, h, priority).m, eventType, h).m, eventType)
      == QueueAt(m, eventType)
  {
    var q := QueueAt(m, eventType);
    var m1 := Attach(host, m, eventType, h, priority).m;
    var e := Entry(h, Effective(m.enablePriorities, priority));
    assert QueueAt(m1, eventType) == Insert(q, e);
    AttachFrame(host, m, eventType, h, priority);
    DetachKeepsOrder(host, m1, eventType, h);
    WithoutInsert(q, e);
    WithoutAbsent(q, h);
  }
}

=== FILE: scenarios.dfy ===
/** Concrete runs of the manager, with every handler a valid closure that
    returns `null` and never stops the event. */
module Scenarios {
  import opened Outcomes
  import opened Values
  import opened Queues
  import opened EventTypes
  import opened Registry
  import opened Dispatch

  const Quiet: Host := Host(h => true, s => None, (h, e) => Reaction(Null, false))

  const A: Handler := Closure(1)

  /** A fresh manager: no registry yet, not collecting. */
  function Fresh(enablePriorities: bool): Manager {
    Manager(None, [], false, enablePriorities)
  }

  /** As written, `detach` leaves a just-attached closure queued, and on a
      key without a queue it fails with a call on `null`; the corrected
      `Detach` empties the queue. */
  lemma DetachAsWrittenCounterexample()
    ensures var m := Attach(Quiet, Fresh(true), "g:n", A, 1).m;
      && Entry(A, 1) in QueueAt(DetachAsWritten(Quiet, m, "g:n", A).m, "g:n")
      && DetachAsWritten(Quiet, Fresh(true), "g:n", A).error == Some(NullMethodCall)
      && QueueAt(Detach(Quiet, m, "g:n", A).m, "g:n") == []
  {
    var m := Attach(Quiet, Fresh(true), "g:n", A, 1).m;
    assert QueueAt(m, "g:n") == [Entry(A, 1)];
    DetachKeepsOrder(Quiet, m, "g:n", A);
  }

  /** With only the guard corrected, detaching the last handler of `"g:n"`
      leaves an empty queue, and the next `fire("g:n")` fails in `top()`;
      with the pruning `detach` it returns `null`. */
  lemma FireAfterDetachingAll()
    ensures var m := Attach(Quiet, Fresh(true), "g:n", A, 1).m;
      && Fire(Quiet, Detach(Quiet, m, "g:n", A).m, "g:n", true).result == Err(EmptyHeap)
      && Fire(Quiet, DetachPrunes(Quiet, m, "g:n", A).m, "g:n", true).result == Ok(Null)
  {
    var m := Attach(Quiet, Fresh(true), "g:n", A, 1).m;
    assert QueueAt(m, "g:n") == [Entry(A, 1)];
    assert IsEventType("g:n") && Group("g:n") == "g" by {
      assert "g:n"[1] == ':';
      assert ColonIndex("g:n") == 1 by {
        assert "g:n"[..1] == "g";
      }
    }
    DetachLastLeavesEmptyQueue(Quiet, m, "g:n", A);
    var d := Detach(Quiet, m, "g:n", A).m;
    assert !HasQueue(d, "g") && d.events.Some?;
    FireEmptyHeap(Quiet, d, "g:n", true);
    var p := DetachPrunes(Quiet, m, "g:n", A).m;
    assert !HasQueue(p, "g:n") && !HasQueue(p, "g");
    FireWithoutQueues(Quiet, p, "g:n", true);
  }
}

=== FILE: values.dfy ===
/** The PHP values the manager handles: values offered as handlers (or as
    handler declarations to the loader) and the statuses handlers return. */
module Values {
  import opened Outcomes

  /** A PHP value offered as a handler or as a handler declaration.
      Objects and closures carry an identity; two of them are identical (`===`)
      exactly when they are equal as Dafny values. `Host.instantiate` gives
      one value per class name, so instances loaded separately from the same
      class name are identical here, unlike in PHP. */
  datatype Handler =
      /** A `Closure` instance: invoked directly. */
    | Closure(id: nat)
      /** Any other object. `methods` holds every name `method_exists`
          accepts for it; PHP method names are case-insensitive, so it holds
          every spelling of each method's name. */
    | Obj(id: nat, methods: set<string>)
      /** A string, possibly the name of a class. */
    | Str(s: string)
      /** An array whose `'class'` entry is set (not null). `priority` is its
          `'priority'` entry when that is set, already cast to `int`; any
          other entries are ignored by the loader. */
    | Keyed(cls: Handler, priority: Option<int>)
      /** An array without a set `'class'` entry; `items` are its values in
          array order (a `'priority'` entry, if present, is one of them). */
    | List(items: seq<Handler>)
      /** Any other value: `null`, a boolean, a number, a resource. */
    | Scalar(id: nat)

  /** `method_exists($handler, $name)` for a value that is not a closure.
      Only objects are considered to have methods. */
  predicate HasMethod(h: Handler, name: string) {
    h.Obj? && name in h.methods
  }

  /** A value returned by a handler. */
  datatype Status =
    | Null
    | Bool(b: bool)
    | Int(i: int)
    | Text(s: string)
      /** A finite float (NaN and the infinities are not represented). */
    | Float(f: real)
      /** An array or an object. */
    | Compound(id: nat)

  /** PHP's coercion of a returned value to the declared return type `?bool`
      in a file without `strict_types`: null stays null, scalars become
      booleans by PHP truthiness (`0`, `0.0`, `""` and `"0"` are false), arrays
      and objects raise a `TypeError`. */
  function AsNullableBool(s: Status): (r: Result<Status>)
    ensures r.Err? <==> s.Compound?
    ensures r.Err? ==> r.error == TypeError
    ensures r.Ok? ==> (r.value.Null? <==> s.Null?) && (r.value.Null? || r.value.Bool?)
    ensures s.Int? ==> r == Ok(Bool(s.i != 0))
    ensures s.Float? ==> r == Ok(Bool(s.f != 0.0))
    ensures s.Text? ==> r == Ok(Bool(s.s != "" && s.s != "0"))
    ensures s.Null? || s.Bool? ==> r == Ok(s)
  {
    match s
    case Null => Ok(Null)
    case Bool(_) => Ok(s)
    case Int(i) => Ok(Bool(i != 0))
    case Text(t) => Ok(Bool(t != "" && t != "0"))
    case Float(f) => Ok(Bool(f != 0.0))
    case Compound(_) => Err(TypeError)
  }
}
